=== FILE: README.md ===
# scrape_for_llm crawl core in Dafny

This project models `app/scraping.py` of scrape_for_llm. That file is a small crawler that turns a web site into JSON for a language model. The model has three parts.

- **The crawl** (`scrape_page`). It is a depth-bounded, depth-first traversal:
  - the guard returns `{}` for a negative depth or an already visited URL;
  - otherwise the URL is marked visited and fetched;
  - a loaded page gives a record of url, title, scraped_at and sections_content;
  - when the depth is positive, each `<a href>` is joined with the page URL, and contact links and links to other hosts are skipped;
  - every other link is crawled one level down, and its record is merged into the page's with `dict.update`;
  - a failed fetch gives the fixed error record.
- **Link classification.** There are two tests:
  - `is_internal_link`, a comparison of network locations;
  - the contact test `PHONE_EMAIL_PATTERN.match`.
- **Section extraction** (`scrape_sections_content`). It selects the `ct-` containers and collects headings, text blocks, paragraphs and links from each. A section is kept only when it is not empty.

It also models two pieces of `scrape_website`: the file name `save_to_json` derives from the URL, and the shared `visited` set.

## How things are represented

- **Python state.** The `visited` set that Python shares by reference is threaded through the calls as `State(visited, log)`. The log records every fetch as `Visit(url, depth, referrer)`. It is an observation for stating properties; the crawl reads it only to number the clock readings.
- **The environment.** `Web` bundles three functions:
  - the fetch, which gives a parsed `Page` (title element, sections, hrefs) or the RequestException message;
  - `urljoin`;
  - the UTC clock, indexed by the fetch number.

  `ParsePage` is what the crawl reads from a parsed document tree.
- **The document.** It is a tree of `Node`s. `find_all` is a filter over the pre-order walk `Descendants`. `get_text(strip=True)` is the concatenation of the stripped non-empty texts of the tree's text nodes, which stand for the strings `get_text` reads (see "Left out" for comments and script text). `.string` follows single-child chains.
- **Records.** A record is the dictionary `scrape_page` returns. Its keys are always among the five that `scrape_page` writes, so `Record` has five optional entries, and `Merge` is `dict.update` key by key.
- **URLs.** URLs are strings. `Netloc` is urlparse's network location: an optional scheme (a letter, then letters, digits, `+`, `-` or `.`, then `:`), then, after `//`, everything up to the first `/`, `?` or `#`.
- **The contact pattern.** The phone alternative is written out piece by piece as bounded repetitions of character classes. `\s` is Python's `str.isspace`.

## Behaviour of the code worth knowing

- `re.match` anchors the whole pattern at the first character. So the `|@` alternative fires only for strings that START with `@`, not for every string that contains `@`. `Links.HttpLinkNotContact` proves that `http…` URLs with an `@` later on are not contact links.
- The heading and text-block class tests (lines 68 and 72) are substring tests on each class token (`'ct-headline' in x`). The container test (line 60) is a prefix test.
- Section links record the raw `href`, not an absolute URL. `section.base_url` is BeautifulSoup's descendant lookup `find('base_url')`. It yields None when no `<base_url>` element lies anywhere below the container, and `urljoin(None, href)` then returns `href` unchanged. Pages with such an element are outside the model (see "## Left out").
- The crawl is depth first and marks a URL visited when it is first fetched. A page first reached through a long path, with little depth left, is not expanded again when a shorter path reaches it later, so a page within the depth bound of the start may never be fetched (`CrawlLinks.VisitedFirstAtDepthZero`).
- The record of a crawl is the pages' own records merged in fetch order, so its `url` and `sections_content` are those of the LAST page fetched (`CrawlProperties.LastFetchWins`). This is what `data.update` does.

## Model

| member | source | states |
|---|---|---|
| Crawler.Crawl | app/scraping.py:11-52 | with a negative depth or an already visited URL the result is `{}` and the state (visited set and fetch log) is unchanged: no fetch happens; the fetch log never shrinks |
| Crawler.Follow | app/scraping.py:36-46 | the link loop with no links left returns the page's record and state unchanged; the log never gets shorter; that the old log stays a prefix is FollowLogGrows |
| Crawler.FollowLogGrows | app/scraping.py:37-46 | the link loop only appends to the fetch log: the log before the loop is a prefix of the log after it |
| Crawler.TitleElementOf | app/scraping.py:23 | definition of `soup.title`, the first title element in document order, with its `.string`; its properties are in TitleDefault and TitleFromFirstTitleElement |
| Crawler.TitleValue | app/scraping.py:23 | definition of the title value: "No Title" without a title element, else the `.string` or null; its properties are in TitleDefault and TitleFromFirstTitleElement |
| Crawler.Hrefs | app/scraping.py:37 | definition of the hrefs of `find_all('a', href=True)`; its properties are in HrefsAreAnchors |
| Crawler.ParsePage | app/scraping.py:20-37 | definition of what scrape_page takes from the parsed document (title, sections, hrefs); its properties are in ParsedPageRecord |
| Crawler.CrawlExtends | app/scraping.py:12-17 | every crawl extends its starting state: the visited set only grows, and only by URLs fetched by this crawl; each of these was unvisited before and is fetched once; the first fetch is the URL itself at the given depth |
| Crawler.FollowExtends | app/scraping.py:37-46 | the link loop extends its starting state in the same sense |
| Crawler.CrawlLogGrows | app/scraping.py:12-17 | the guard leaves the log as it is; otherwise the log starts with the old log followed by this crawl's own fetch |
| Crawler.MergeOverwrites | app/scraping.py:46 | `dict.update`: a key the child has takes the child's value; every other key keeps the parent's value |
| Crawler.MergeKeys | app/scraping.py:46 | the merged record's keys are the union of the parent's and the child's keys |
| Crawler.MergeEmpty | app/scraping.py:46 | merging the empty child `{}` leaves the parent unchanged |
| Crawler.TitleDefault | app/scraping.py:23 | a document without a title element gets the title "No Title" |
| Crawler.TitleFromFirstTitleElement | app/scraping.py:23 | otherwise the title is the `.string` of the first title element in document order, or null when that element does not hold a single text |
| Crawler.HrefsAreAnchors | app/scraping.py:37 | the hrefs the loop walks are one per `<a>` with an href, in document order: the i-th href is the href of the i-th such anchor of the walk, and every such anchor of the tree, at the top or nested under any element, is in the walk |
| Dom.StringOf | app/scraping.py:23 | definition of `.string`; its properties are in GetTextOfString and TitleFromFirstTitleElement |
| Dom.DescendantsComplete | app/scraping.py:37 | the pre-order walk behind `find_all` reaches every top-level node and every child of every element it reaches |
| CrawlProperties.CrawlDiscipline | app/scraping.py:36-46 | every fetch after a crawl's first has a referrer, its URL is neither a contact link nor on another host than that referrer, and its depth is in [0, initial depth): no fetch is more than the initial depth below the start, and no skipped link is fetched |
| CrawlProperties.FollowDiscipline | app/scraping.py:36-46 | the same for every fetch the link loop makes |
| CrawlLinks.CrawlHasParents | app/scraping.py:36-46 | every fetch after a crawl's first has, earlier in the log, a parent fetch: the referrer is the parent's URL, the depth is exactly one less than the parent's, the parent's page loaded, and the URL is the join of the parent's URL with one of that page's hrefs and is not skipped |
| CrawlLinks.FollowHasParents | app/scraping.py:37-46 | the same for every fetch the link loop over (part of) a fetched page's hrefs makes |
| CrawlLinks.FollowVisitsEveryLink | app/scraping.py:37-46 | after the link loop every href whose join with the page URL is followable (neither a contact link nor on another host) is in the visited set: no followable link is passed over |
| CrawlLinks.CrawlFollowsEveryLink | app/scraping.py:36-46 | for every page a crawl loads with depth > 0, every joined href of it that is followable (neither a contact link nor on another host) is in the final visited set |
| CrawlLinks.FollowFollowsEveryLink | app/scraping.py:37-46 | the same for every page loaded by the crawls the link loop starts |
| CrawlLinks.CrawlFollowsLinks | app/scraping.py:11-46 | over one top-level crawl the fetch log is the tree of followed links: the first fetch is the start URL, every later one is a followable link (neither a contact link nor on another host) of an earlier page one level up, and every followable link of a page loaded with depth > 0 is the URL of some fetch; the order of the fetches is stated by FollowSplit and VisitedFirstAtDepthZero |
| CrawlLinks.FollowSplit | app/scraping.py:37-46 | the link loop is depth first and left to right: running it over `xs + ys` is running it over `xs`, each followed link's whole crawl included, and then over `ys` from the record and visited state that leaves |
| CrawlLinks.VisitedFirstAtDepthZero | app/scraping.py:11-46 | with depth 2, start page s linking to [a, b], a linking to [b] and b linking to [c]: the fetches are s (depth 2), a (depth 1, from s), b (depth 0, from a); c is never fetched although it is two links from s, and the record's url is b |
| CrawlProperties.FetchedAtMostOnce | app/scraping.py:11-17 | over one top-level crawl no URL is fetched twice, even on a cyclic link graph; the visited set ends as exactly the fetched URLs; every fetch has a depth between 0 and the initial depth |
| CrawlProperties.SelfLinkFetchedOnce | app/scraping.py:12-15 | a page whose every link resolves to itself is fetched exactly once, at any depth |
| CrawlProperties.MergeAllConcat | app/scraping.py:46 | merging the records of a concatenation is merging the two parts' merges |
| CrawlProperties.CrawlRecordIsMergeOfFetches | app/scraping.py:28-48 | the record a crawl returns is the own records of all the pages it fetched (page record or error record), merged in fetch order |
| CrawlProperties.FollowRecordIsMergeOfFetches | app/scraping.py:45-46 | the link loop's record is the page's record updated with the own records of every fetch the loop made, in fetch order |
| CrawlProperties.LastFetchWins | app/scraping.py:28-46 | after a crawl that fetches, the record's `url` and `sections_content` are those of the last page fetched; its `url` is the starting URL exactly when nothing else was fetched |
| CrawlProperties.LastRecordWins | app/scraping.py:46 | the own records of a run of fetches, merged in order, carry the url and sections_content of the last fetch; they carry the first fetch's url only when it is also the last, given distinct URLs |
| CrawlProperties.ErrorShape | app/scraping.py:50-52 | a failed fetch yields exactly the keys url, sections_content ("No content available") and error (the message); only that one URL is marked and fetched |
| CrawlProperties.DepthZeroFetchesOnlyThePage | app/scraping.py:28-36 | at depth 0 a loaded page is fetched alone, and its record is its url, title, timestamp + "Z" and sections |
| CrawlProperties.ParsedPageRecord | app/scraping.py:20-33 | a page parsed from a document and fetched at depth 0 has the record title of the document's first title element, "No Title" when there is none, and the sections scraped from that document |
| Links.IsInternalLink | app/scraping.py:89-93 | definition; its properties are in InternalIffSameHost and RelativeLinkIsInternal |
| Links.IsContactLink | app/scraping.py:9 | definition; its properties are in FourDigitsIsContact, HttpLinkNotContact and MailtoIsHostlessContact |
| Crawler.Skipped | app/scraping.py:41-45 | definition of the links the loop passes over; that nothing else is passed over is FollowVisitsEveryLink, and that none of them is fetched is CrawlDiscipline |
| Crawler.Merge | app/scraping.py:46 | definition of `dict.update`; its properties are in MergeOverwrites, MergeKeys and MergeEmpty |
| Crawler.PageRecord | app/scraping.py:28-33 | definition of a loaded page's own record; its properties are in DepthZeroFetchesOnlyThePage and ParsedPageRecord |
| Crawler.ErrorRecord | app/scraping.py:52 | definition of a failed fetch's record; its properties are in ErrorShape |
| Links.Netloc | app/scraping.py:91-92 | the network location `urlparse(..).netloc` never holds '/', '?' or '#'; its value on absolute URLs is in NetlocOfAbsolute, and on relative ones in RelativeLinkIsInternal |
| Links.InternalIffSameHost | app/scraping.py:89-93 | for two absolute URLs, the link is internal exactly when its host is empty or equal to the base's host, compared case-sensitively with port and user info included |
| Links.RelativeLinkIsInternal | app/scraping.py:89-93 | a link without ':' and without a leading "//" has no host and is internal to any base |
| Links.NetlocOfAbsolute | app/scraping.py:91-92 | the network location of `scheme://host rest` is exactly `host` |
| Links.FourDigitsIsContact | app/scraping.py:9 | any string starting with four ASCII digits matches the phone alternative |
| Links.HttpLinkNotContact | app/scraping.py:9 | a string starting with "http" is never a contact link, wherever '@' occurs in it |
| Links.MailtoIsHostlessContact | app/scraping.py:41-45 | a "mailto:" link has no host, so the host test alone would follow it; the contact test is what skips it |
| Text.Strip | app/scraping.py:69 | `str.strip()`: the result has no whitespace at either end and is no longer than the input (the slice is StripBounds); the other properties are in StripEmptyIffAllSpace and StripFixesStripped |
| Text.StripEmptyIffAllSpace | app/scraping.py:69 | a string strips to the empty string exactly when every character of it is whitespace |
| Text.StripFixesStripped | app/scraping.py:69 | stripping a string with no whitespace at either end leaves it unchanged |
| Dom.GetText | app/scraping.py:69 | `get_text(strip=True)` has no whitespace at either end, and is empty exactly when no text below the element has a non-whitespace character |
| Dom.GetTextOfString | app/scraping.py:69 | for an element with a `.string`, `get_text(strip=True)` is that string stripped |
| Dom.GetTextSplit | app/scraping.py:69 | the text of an element whose children are `xs` then `ys` is the text of `xs` followed by the text of `ys`: every string below is kept, in document order, joined with no separator |
| Dom.StrippedStringsConcat | app/scraping.py:69 | the stripped non-empty strings of two consecutive runs of nodes are those of the first run followed by those of the second |
| Dom.GetTextOfTextChild | app/scraping.py:69 | a lone text child contributes its content stripped |
| Dom.GetTextOfElementChild | app/scraping.py:69 | a lone element child contributes its own text: inline markup adds nothing of its own |
| Dom.GetTextJoinsPieces | app/scraping.py:69 | `<p>u<b>w</b></p>` gives strip(u) + strip(w): the pieces are stripped one by one and joined with no separator |
| Sections.ExtractSection | app/scraping.py:61-85 | a container yields a section exactly when something below it is a headline, a text block, a paragraph or an anchor with an href; the yielded section is never empty |
| Sections.IsContainer | app/scraping.py:60 | definition of the container selection: a `section` or `div` with a class token beginning "ct-"; its properties are in NoContainerNoSections, ContainerKept and EveryContainerContributes |
| Sections.IsHeadline | app/scraping.py:68 | definition: an h1-h6 with a class token containing "ct-headline"; its properties are in HeadingProvenance |
| Sections.IsTextBlock | app/scraping.py:72 | definition: a `div` with a class token containing "ct-text-block"; its properties are in TextBlocksLeadContent and ContentOrder |
| Sections.IsParagraph | app/scraping.py:74 | definition: a `p` element; its properties are in ParagraphsTrailContent and ContentOrder |
| Sections.IsAnchor | app/scraping.py:78 | definition: an `a` element with an href, whatever its value; its properties are in LinkProvenance and HrefsAreAnchors |
| Sections.LinkOf | app/scraping.py:79-81 | definition of one link record: the anchor's stripped text and its raw href; its properties are in LinkProvenance |
| Sections.SectionData | app/scraping.py:61-85 | definition of the three lists of one container; their properties are in SectionDataEmpty, HeadingProvenance, TextBlocksLeadContent, ParagraphsTrailContent, ContentOrder and LinkProvenance |
| Sections.SectionDataEmpty | app/scraping.py:84 | the three lists are all empty exactly when nothing below the container is collected |
| Sections.HeadingProvenance | app/scraping.py:68-69 | the headings are, one per headline below the container and in document order, the headline's stripped text; a headline is an h1-h6 with a class token containing "ct-headline", and every one below the container contributes |
| Sections.TextBlocksLeadContent | app/scraping.py:72-73 | the first content entries, one per text block below the container, are text-block texts |
| Sections.ParagraphsTrailContent | app/scraping.py:74-75 | every content entry after those is the text of a `<p>` below the container |
| Sections.ContentOrder | app/scraping.py:72-75 | for any split of the walk below a container into a front and a back part, the content is the front's text blocks, the back's text blocks, the front's paragraphs, then the back's paragraphs: all text blocks before all paragraphs, each group in document order |
| Sections.LinkProvenance | app/scraping.py:78-81 | the links are, one per anchor with an href below the container and in document order, the anchor's stripped text and raw href; every such anchor contributes |
| Sections.Collect | app/scraping.py:60-85 | the loop over the selected containers keeps at most one section per container, none of them empty; what it keeps is CollectKeepsContent |
| Sections.CollectKeepsContent | app/scraping.py:60-85 | the loop keeps, in order, exactly the containers with something collectable below them, each giving the section gathered from everything below it |
| Sections.ExtractSections | app/scraping.py:55-87 | the sections are, in document order, one per selected container (at any nesting depth) with something collectable below it, each the section data of everything below that container; none is empty, and there are at most as many as selected containers |
| Sections.EveryContainerContributes | app/scraping.py:59-85 | every selected container anywhere in the tree, nested ones included, with something collectable below it contributes its section |
| Sections.ContainerKept | app/scraping.py:60-85 | a container with something collectable below it and no container nested inside yields exactly one section, built from everything below it |
| Sections.SectionsInDocumentOrder | app/scraping.py:59-60 | the sections of two consecutive parts of a document are those of the first part followed by those of the second |
| Sections.NoContainerNoSections | app/scraping.py:60 | a document with no `section`/`div` carrying a `ct-` class token yields no sections |
| Sections.ContainerWithoutContentDropped | app/scraping.py:83-85 | a container with nothing collectable below it is dropped |
| Website.OutputFilename | app/scraping.py:97 | the output file name ends in ".json" and contains no '/' |
| Website.FilenameDropsScheme | app/scraping.py:97 | for `https://rest` and `http://rest`, the file name is `rest` with every '/' turned into '_', plus ".json": both schemes share one file |
| Website.ScrapeWebsiteShared | app/scraping.py:108-110 | scrape_website as written, threading the one shared visited set: the shared state only grows and ends up holding the URL |
| Website.RepeatedRequestReturnsNothing | app/scraping.py:11-13 | with the shared set, a second request for the same page in one process fetches nothing and returns `{}` |
| Website.ScrapeWebsite | app/scraping.py:108-115 | with a fresh visited set per call, a non-negative depth always yields a record with a url and a sections_content; a negative depth yields `{}` |

## Left out

- The network: `requests.get` and `raise_for_status` (lines 17-18) are the `fetch` field of `Web`. Only RequestException is absorbed (line 50). Other exceptions are not modelled.
- HTML parsing by BeautifulSoup and lxml (line 20): the model starts from the parsed tree. Tag names are taken to be lower case, as lxml produces them.
- `urljoin` (lines 38, 80) is a library call: it is the `join` field of `Web`.
- Sections.LinkOf: a selected `ct-` container holding a `<base_url>` element somewhere below it is not modelled; the link is recorded with its raw href. In the code, `section.base_url` is then that Tag. With an anchor whose href is not empty, urljoin raises a TypeError (line 80), which escapes scrape_page. With an empty href, urljoin returns the Tag itself, and the failure comes later, in `json.dump`.
- `urlparse` (lines 91-92) is modelled only as far as the network location goes. Its stripping of control characters and its ValueError on malformed IPv6 hosts are left out.
- Comments and the text of `<script>`, `<style>` and `<template>` elements: the tree holds only the strings `get_text` reads, so `get_text` skipping those strings, and `.string` returning a lone comment, are not modelled.
- Links.IsContactLink: `\d` is modelled as the ASCII digits; Python's `\d` also matches other Unicode decimal digits.
- `datetime.utcnow()` (line 31) is the `clock` field of `Web`. The timestamp format is whatever the clock returns.
- `print` (lines 42, 51, 106), the file writing in `save_to_json` (lines 98-104) and the Flask application in scrape_app.py are left out.
- The insertion order of keys in the record, which shows only in the JSON layout, is not modelled.

## Findings

| source | as written | input that shows it | evidently intended | confidence | as-written member | corrected member |
|---|---|---|---|---|---|---|
| app/scraping.py:11 | `visited=set()` is evaluated once, when the function is defined. scrape_website (line 110) never passes a set, so every call in the process shares one visited set. | Call `scrape_website("https://a.example/", 0)` twice in one process, e.g. two submissions of the same form. The second call returns `{}`, and save_to_json overwrites the first result's file with `{}`. | Each top-level scrape starts with an empty visited set. | high; not executed | Website.RepeatedRequestReturnsNothing | Website.ScrapeWebsite |

=== FILE: crawl.dfy ===
/** scrape_page (app/scraping.py): the depth-bounded, depth-first crawl that
    fetches a page, builds its record, follows its same-site links and merges
    every child's record into its own with `dict.update`.

    The network, urljoin and the clock are the environment `Web`; the
    `visited` set Python shares by reference is threaded through the calls
    explicitly, together with a log of the fetches made (the log is only an
    observation, the crawl never reads it except to number fetches for the
    clock). */
module Crawler {
  import opened Options
  import opened Dom
  import opened Links
  import opened Sections

  /** A value of the record dictionary: a string, JSON null (a title
      element whose `.string` is None), or the list of sections. */
  datatype Value = Str(s: string) | Null | SectionList(sections: seq<Section>)

  /** The dictionary scrape_page returns. Its keys are always among the five
      scrape_page writes ("url", "title", "scraped_at", "sections_content",
      "error"), so it is a record of five entries, None where the key is
      absent. */
  datatype Record = Record(url: Option<Value>, title: Option<Value>, scrapedAt: Option<Value>,
                           sectionsContent: Option<Value>, error: Option<Value>)

  /** `{}`. */
  const Empty: Record := Record(None, None, None, None, None)

  /** The keys scrape_page writes. */
  const KeyNames: set<string> := {"url", "title", "scraped_at", "sections_content", "error"}

  const NoTitle: string := "No Title"
  const NoContent: string := "No content available"

  /** `soup.title`: absent, or present with its `.string` (None when the
      element does not hold exactly one text). */
  datatype Title = Missing | Present(text: Option<string>)

  /** What scrape_page reads from a parsed page: the title element, the
      sections, and the hrefs of its anchors in document order. */
  datatype Page = Page(title: Title, sections: seq<Section>, hrefs: seq<string>)

  /** What `requests.get(url)` followed by `raise_for_status()` gives: the
      parsed page, or the RequestException's message. */
  datatype Response = Loaded(page: Page) | Failed(message: string)

  /** The crawl's environment: the fetch, urljoin, and the UTC clock read
      at the n-th fetch (an ISO-8601 string without the trailing "Z"). */
  datatype Web = Web(fetch: string -> Response, join: (string, string) -> string, clock: nat -> string)

  /** One fetch: the URL, the depth the call had, and the page whose link
      led here (None for the first call). */
  datatype Visit = Visit(url: string, depth: int, referrer: Option<string>)

  datatype State = State(visited: set<string>, log: seq<Visit>)

  datatype Crawled = Crawled(data: Record, state: State)

  // ---------------------------------------------------------------------
  // Reading a parsed document

  predicate IsTitleElement(n: Node)
  {
    n.Element? && n.tag == "title"
  }

  /** `soup.title`: the first title element in document order. */
  function TitleElementOf(doc: seq<Node>): Title
  {
    var desc := Descendants(doc);
    match FindFirst(desc, IsTitleElement)
    case None => Missing
    case Some(i) => Present(StringOf(desc[i]))
  }

  function HrefOf(n: Node): string
  {
    if n.Element? && n.href.Some? then n.href.value else []
  }

  /** `soup.find_all('a', href=True)`: the hrefs of the page, in document
      order. */
  function Hrefs(doc: seq<Node>): seq<string>
  {
    Map(Filter(Descendants(doc), IsAnchor), HrefOf)
  }

  /** Everything scrape_page takes from the parsed document. */
  function ParsePage(doc: seq<Node>): Page
  {
    Page(TitleElementOf(doc), ExtractSections(doc), Hrefs(doc))
  }

  /** A page without any title element is titled "No Title". */
  lemma TitleDefault(doc: seq<Node>)
    requires forall n :: n in Descendants(doc) ==> !IsTitleElement(n)
    ensures TitleValue(TitleElementOf(doc)) == Str(NoTitle)
  {
  }

  /** Otherwise the title is the text of the FIRST title element when it
      holds a single text, and null when it does not. */
  lemma TitleFromFirstTitleElement(doc: seq<Node>, i: nat)
    requires i < |Descendants(doc)| && IsTitleElement(Descendants(doc)[i])
    requires forall k :: 0 <= k < i ==> !IsTitleElement(Descendants(doc)[k])
    ensures StringOf(Descendants(doc)[i]).Some? ==> TitleValue(TitleElementOf(doc)) == Str(StringOf(Descendants(doc)[i]).value)
    ensures StringOf(Descendants(doc)[i]).None? ==> TitleValue(TitleElementOf(doc)) == Null
  {
  }

  /** The hrefs the crawl walks are those of the anchors of the page, one
      per anchor and in document order: the i-th href is the href of the
      i-th anchor of the walk, and every anchor of the tree, at the top or
      nested under any element, is in that walk. */
  lemma HrefsAreAnchors(doc: seq<Node>)
    ensures |Hrefs(doc)| == |Filter(Descendants(doc), IsAnchor)|
    ensures forall i :: 0 <= i < |Hrefs(doc)| ==>
      && IsAnchor(Filter(Descendants(doc), IsAnchor)[i])
      && Hrefs(doc)[i] == Filter(Descendants(doc), IsAnchor)[i].href.value
    ensures forall k :: 0 <= k < |doc| && IsAnchor(doc[k]) ==> doc[k] in Filter(Descendants(doc), IsAnchor)
    ensures forall n, c :: n in Descendants(doc) && n.Element? && c in n.children && IsAnchor(c) ==>
      c in Filter(Descendants(doc), IsAnchor)
  {
    var anchors := Filter(Descendants(doc), IsAnchor);
    forall i | 0 <= i < |anchors|
      ensures IsAnchor(anchors[i]) && Hrefs(doc)[i] == anchors[i].href.value
    {
      assert anchors[i] in anchors;
    }
    DescendantsComplete(doc);
  }

  // ---------------------------------------------------------------------
  // Records

  /** `soup.title.string if soup.title else "No Title"`. */
  function TitleValue(t: Title): Value
  {
    match t
    case Missing => Str(NoTitle)
    case Present(Some(s)) => Str(s)
    case Present(None) => Null
  }

  /** The record of a page that was fetched and parsed. */
  function PageRecord(url: string, page: Page, stamp: string): Record
  {
    Record(Some(Str(url)), Some(TitleValue(page.title)), Some(Str(stamp + "Z")), Some(SectionList(page.sections)), None)
  }

  /** The record of a page whose fetch raised a RequestException. */
  function ErrorRecord(url: string, message: string): Record
  {
    Record(Some(Str(url)), None, None, Some(Str(NoContent)), Some(Str(message)))
  }

  /** One key of `parent.update(child)`: the child's value when the child
      has the key, the parent's otherwise. */
  function Update(parent: Option<Value>, child: Option<Value>): Option<Value>
  {
    if child.Some? then child else parent
  }

  /** `parent.update(child)`. */
  function Merge(parent: Record, child: Record): Record
  {
    Record(Update(parent.url, child.url), Update(parent.title, child.title), Update(parent.scrapedAt, child.scrapedAt),
           Update(parent.sectionsContent, child.sectionsContent), Update(parent.error, child.error))
  }

  /** `record.get(key)`. */
  function Get(r: Record, key: string): Option<Value>
  {
    if key == "url" then r.url
    else if key == "title" then r.title
    else if key == "scraped_at" then r.scrapedAt
    else if key == "sections_content" then r.sectionsContent
    else if key == "error" then r.error
    else None
  }

  /** The keys present in a record. */
  function Keys(r: Record): set<string>
  {
    set key | key in KeyNames && Get(r, key).Some?
  }

  /** dict.update, key by key: a key the child has takes the child's value,
      any other key keeps the parent's, and the merged keys are the union. */
  lemma MergeOverwrites(parent: Record, child: Record, key: string)
    ensures Get(child, key).Some? ==> Get(Merge(parent, child), key) == Get(child, key)
    ensures Get(child, key).None? ==> Get(Merge(parent, child), key) == Get(parent, key)
  {
  }

  /** The merged record's keys are the parent's and the child's. */
  lemma MergeKeys(parent: Record, child: Record)
    ensures Keys(Merge(parent, child)) == Keys(parent) + Keys(child)
  {
    forall key | key in KeyNames {
      MergeOverwrites(parent, child, key);
    }
  }

  /** Merging an empty child changes nothing. */
  lemma MergeEmpty(parent: Record)
    ensures Merge(parent, Empty) == parent
  {
  }

  /** Two successive merges are one merge of the merged children. */
  lemma MergeAssociative(a: Record, b: Record, c: Record)
    ensures Merge(Merge(a, b), c) == Merge(a, Merge(b, c))
  {
  }

  // ---------------------------------------------------------------------
  // The traversal

  function UrlsOf(log: seq<Visit>): set<string>
  {
    set v | v in log :: v.url
  }

  /** No URL occurs twice in the log. */
  predicate NoRepeats(log: seq<Visit>)
  {
    forall i, j :: 0 <= i < j < |log| ==> log[i].url != log[j].url
  }

  /** `after` is `before` after some more fetches: the log only grew; each
      new fetch was of a URL not visited before and not fetched twice; the
      visited set only grew, by exactly the newly fetched URLs. */
  predicate Extends(before: State, after: State)
  {
    && |before.log| <= |after.log|
    && (forall i :: 0 <= i < |before.log| ==> after.log[i] == before.log[i])
    && (forall i :: |before.log| <= i < |after.log| ==> after.log[i].url !in before.visited && after.log[i].url in after.visited)
    && (forall i, j :: |before.log| <= i < j < |after.log| ==> after.log[i].url != after.log[j].url)
    && before.visited <= after.visited
    && (forall u :: u in after.visited ==> u in before.visited || FetchedSince(after.log, |before.log|, u))
  }

  /** `u` is the URL of a fetch at position `from` or later. */
  predicate FetchedSince(log: seq<Visit>, from: nat, u: string)
  {
    exists i :: from <= i < |log| && log[i].url == u
  }

  lemma ExtendsTransitive(a: State, b: State, c: State)
    requires Extends(a, b) && Extends(b, c)
    ensures Extends(a, c)
  {
    forall u | u in c.visited && u !in a.visited ensures FetchedSince(c.log, |a.log|, u) {
      if u in b.visited {
        var i :| |a.log| <= i < |b.log| && b.log[i].url == u;
        assert c.log[i] == b.log[i];
      }
    }
  }

  lemma ExtendsReflexive(st: State)
    ensures Extends(st, st)
  {
  }

  /** `visited.add(url)` before the fetch, recorded in the log. */
  function Mark(st: State, v: Visit): State
  {
    State(st.visited + {v.url}, st.log + [v])
  }

  /** scrape_page(url, depth, visited). The guard returns `{}` without
      fetching; otherwise the URL is marked visited and fetched, a failed
      fetch gives the error record, and a loaded page gives its record, into
      which the results of its followed links are merged when depth > 0. */
  function Crawl(web: Web, url: string, depth: int, referrer: Option<string>, st: State): (r: Crawled)
    ensures depth < 0 || url in st.visited ==> r == Crawled(Empty, st)
    ensures |st.log| <= |r.state.log|
    decreases depth, 1
  {
    if depth < 0 || url in st.visited then Crawled(Empty, st)
    else
      var marked := Mark(st, Visit(url, depth, referrer));
      match web.fetch(url)
      case Failed(message) => Crawled(ErrorRecord(url, message), marked)
      case Loaded(page) =>
        var data := PageRecord(url, page, web.clock(|st.log|));
        if depth > 0 then Follow(web, url, depth, page.hrefs, data, marked) else Crawled(data, marked)
  }

  /** Whether the loop skips a joined link: a contact link, or a link to
      another host. */
  predicate Skipped(page: string, link: string)
  {
    IsContactLink(link) || !IsInternalLink(page, link)
  }

  /** The loop over the page's hrefs: each is joined with the page URL;
      contact links and links to other hosts are skipped; every other one is
      crawled one level down and its record merged into `data`. */
  function Follow(web: Web, page: string, depth: int, hrefs: seq<string>, data: Record, st: State): (r: Crawled)
    requires depth > 0
    ensures |st.log| <= |r.state.log|
    ensures hrefs == [] ==> r == Crawled(data, st)
    decreases depth, 0, |hrefs|
  {
    if hrefs == [] then Crawled(data, st)
    else
      var link := web.join(page, hrefs[0]);
      if Skipped(page, link) then Follow(web, page, depth, hrefs[1..], data, st)
      else
        var child := Crawl(web, link, depth - 1, Some(page), st);
        Follow(web, page, depth, hrefs[1..], Merge(data, child.data), child.state)
  }

  /** Every crawl extends the state it started from, and its first fetch is
      its own URL at its own depth. */
  lemma {:induction false} CrawlExtends(web: Web, url: string, depth: int, referrer: Option<string>, st: State)
    ensures Extends(st, Crawl(web, url, depth, referrer, st).state)
    ensures !(depth < 0 || url in st.visited) ==>
      var r := Crawl(web, url, depth, referrer, st);
      |r.state.log| > |st.log| && r.state.log[|st.log|] == Visit(url, depth, referrer)
    decreases depth, 1
  {
    if depth < 0 || url in st.visited {
      ExtendsReflexive(st);
    } else {
      var v := Visit(url, depth, referrer);
      var marked := Mark(st, v);
      MarkExtends(st, v);
      match web.fetch(url)
      case Failed(_) =>
      case Loaded(page) =>
        if depth > 0 {
          var data := PageRecord(url, page, web.clock(|st.log|));
          FollowExtends(web, url, depth, page.hrefs, data, marked);
          ExtendsTransitive(st, marked, Follow(web, url, depth, page.hrefs, data, marked).state);
        }
    }
  }

  lemma {:induction false} FollowExtends(web: Web, page: string, depth: int, hrefs: seq<string>, data: Record, st: State)
    requires depth > 0
    ensures Extends(st, Follow(web, page, depth, hrefs, data, st).state)
    decreases depth, 0, |hrefs|
  {
    if hrefs == [] {
      ExtendsReflexive(st);
    } else {
      var link := web.join(page, hrefs[0]);
      if Skipped(page, link) {
        FollowExtends(web, page, depth, hrefs[1..], data, st);
      } else {
        var child := Crawl(web, link, depth - 1, Some(page), st);
        CrawlExtends(web, link, depth - 1, Some(page), st);
        FollowExtends(web, page, depth, hrefs[1..], Merge(data, child.data), child.state);
        ExtendsTransitive(st, child.state, Follow(web, page, depth, hrefs[1..], Merge(data, child.data), child.state).state);
      }
    }
  }

  /** The log of a crawl starts with the log it was given, followed, unless
      the guard stopped it, by its own fetch. */
  lemma CrawlLogGrows(web: Web, url: string, depth: int, referrer: Option<string>, st: State)
    ensures var r := Crawl(web, url, depth, referrer, st);
      if depth < 0 || url in st.visited then r.state.log == st.log
      else st.log + [Visit(url, depth, referrer)] <= r.state.log
  {
    CrawlExtends(web, url, depth, referrer, st);
  }

  /** The loop only appends to the log. */
  lemma FollowLogGrows(web: Web, page: string, depth: int, hrefs: seq<string>, data: Record, st: State)
    requires depth > 0
    ensures st.log <= Follow(web, page, depth, hrefs, data, st).state.log
  {
    FollowExtends(web, page, depth, hrefs, data, st);
  }

  lemma MarkExtends(st: State, v: Visit)
    requires v.url !in st.visited
    ensures Extends(st, Mark(st, v))
    ensures Mark(st, v).log[|st.log|] == v
  {
    assert Mark(st, v).log[|st.log|] == v;
  }
}

=== FILE: crawl_links.dfy ===
/** Which links a crawl follows, stated over its fetch log in both
    directions: every fetch after the first was reached through a link of
    an earlier fetch one level up, and every link that the crawl does not
    skip, on every page it expands, ends up visited. */
module CrawlLinks {
  import opened Options
  import opened Links
  import opened Crawler
  import opened CrawlProperties

  // ---------------------------------------------------------------------
  // Every fetch has a parent

  /** A resolved link the loop of scrape_page should follow from `page`:
      not a phone or e-mail link, and on the same host. */
  predicate Followable(page: string, url: string)
  {
    !IsContactLink(url) && IsInternalLink(page, url)
  }

  /** `url` is one of the hrefs of the page at `page`, resolved against it,
      and it is followable. */
  predicate LinkOfPage(web: Web, page: string, url: string)
  {
    && web.fetch(page).Loaded?
    && (exists h :: h in web.fetch(page).page.hrefs && web.join(page, h) == url)
    && Followable(page, url)
  }

  /** Fetch `v` was made by the loop over the links of fetch `parent`: its
      referrer is the parent's URL, its depth is one less than the parent's,
      and its URL is a followed link of the parent's page. */
  predicate ChildOf(web: Web, parent: Visit, v: Visit)
  {
    && v.referrer == Some(parent.url)
    && v.depth == parent.depth - 1
    && LinkOfPage(web, parent.url, v.url)
  }

  /** Fetch `i` of the log is the child of an earlier fetch. */
  predicate HasParent(web: Web, log: seq<Visit>, i: int)
  {
    0 <= i < |log| && exists j :: 0 <= j < i && ChildOf(web, log[j], log[i])
  }

  /** Every fetch of the log from position `from` on has a parent. */
  predicate AllHaveParents(web: Web, log: seq<Visit>, from: int)
  {
    forall i :: from <= i < |log| && 0 <= i ==> HasParent(web, log, i)
  }

  lemma HasParentPrefix(web: Web, a: seq<Visit>, b: seq<Visit>, i: int)
    requires a <= b && HasParent(web, a, i)
    ensures HasParent(web, b, i)
  {
    var j :| 0 <= j < i && ChildOf(web, a[j], a[i]);
    assert b[j] == a[j] && b[i] == a[i];
  }

  /** The fetches of a followed link's crawl, then those of the rest of the
      loop, all have parents, given that the link's own fetch is a child of
      the page at position `p`. */
  lemma JoinParents(web: Web, childLog: seq<Visit>, restLog: seq<Visit>, lo: nat, p: nat)
    requires p < lo <= |childLog| && childLog <= restLog
    requires lo < |childLog| ==> ChildOf(web, childLog[p], childLog[lo])
    requires AllHaveParents(web, childLog, lo + 1)
    requires AllHaveParents(web, restLog, |childLog|)
    ensures AllHaveParents(web, restLog, lo)
  {
    forall i | lo <= i < |restLog| ensures HasParent(web, restLog, i) {
      if i == lo && i < |childLog| {
        assert ChildOf(web, restLog[p], restLog[i]);
      } else if i < |childLog| {
        assert HasParent(web, childLog, i);
        HasParentPrefix(web, childLog, restLog, i);
      }
    }
  }

  /** Every fetch of a crawl after its own has, earlier in the log, a parent
      fetch one level up whose page links to it. */
  lemma {:induction false} CrawlHasParents(web: Web, url: string, depth: int, referrer: Option<string>, st: State)
    ensures AllHaveParents(web, Crawl(web, url, depth, referrer, st).state.log, |st.log| + 1)
    decreases depth, 1
  {
    if !(depth < 0 || url in st.visited) {
      var r := Crawl(web, url, depth, referrer, st);
      var marked := Mark(st, Visit(url, depth, referrer));
      match web.fetch(url)
      case Failed(_) =>
      case Loaded(page) =>
        if depth > 0 {
          var data := PageRecord(url, page, web.clock(|st.log|));
          assert r == Follow(web, url, depth, page.hrefs, data, marked);
          assert marked.log[|st.log|] == Visit(url, depth, referrer);
          FollowHasParents(web, url, depth, page.hrefs, data, marked, |st.log|);
        }
    }
  }

  /** The loop over a suffix `hrefs` of the hrefs of the page fetched at
      position `p`: every fetch it makes has a parent. */
  lemma {:induction false} FollowHasParents(web: Web, page: string, depth: int, hrefs: seq<string>, data: Record, st: State, p: nat)
    requires depth > 0
    requires p < |st.log| && st.log[p].url == page && st.log[p].depth == depth
    requires web.fetch(page).Loaded?
    requires forall h :: h in hrefs ==> h in web.fetch(page).page.hrefs
    ensures AllHaveParents(web, Follow(web, page, depth, hrefs, data, st).state.log, |st.log|)
    decreases depth, 0, |hrefs|
  {
    if hrefs != [] {
      var link := web.join(page, hrefs[0]);
      assert forall h :: h in hrefs[1..] ==> h in hrefs;
      if Skipped(page, link) {
        FollowHasParents(web, page, depth, hrefs[1..], data, st, p);
      } else {
        var child := Crawl(web, link, depth - 1, Some(page), st);
        var rest := Follow(web, page, depth, hrefs[1..], Merge(data, child.data), child.state);
        CrawlHasParents(web, link, depth - 1, Some(page), st);
        CrawlLogGrows(web, link, depth - 1, Some(page), st);
        assert child.state.log[p] == st.log[p];
        if |st.log| < |child.state.log| {
          assert child.state.log[|st.log|] == Visit(link, depth - 1, Some(page));
          assert hrefs[0] in web.fetch(page).page.hrefs;
          assert ChildOf(web, child.state.log[p], child.state.log[|st.log|]);
        }
        FollowHasParents(web, page, depth, hrefs[1..], Merge(data, child.data), child.state, p);
        FollowLogGrows(web, page, depth, hrefs[1..], Merge(data, child.data), child.state);
        JoinParents(web, child.state.log, rest.state.log, |st.log|, p);
      }
    }
  }

  // ---------------------------------------------------------------------
  // Every link that is not skipped is followed

  /** Every href of `hrefs` that resolves against `page` to a followable
      link resolves to a URL in `visited`. */
  predicate FollowsAll(web: Web, page: string, hrefs: seq<string>, visited: set<string>)
  {
    forall k :: 0 <= k < |hrefs| && Followable(page, web.join(page, hrefs[k])) ==>
      web.join(page, hrefs[k]) in visited
  }

  /** A crawl keeps what was visited and, unless the depth is negative,
      visits its own URL. */
  lemma CrawlVisits(web: Web, url: string, depth: int, referrer: Option<string>, st: State)
    ensures st.visited <= Crawl(web, url, depth, referrer, st).state.visited
    ensures depth >= 0 ==> url in Crawl(web, url, depth, referrer, st).state.visited
  {
    CrawlExtends(web, url, depth, referrer, st);
  }

  lemma FollowVisitedGrows(web: Web, page: string, depth: int, hrefs: seq<string>, data: Record, st: State)
    requires depth > 0
    ensures st.visited <= Follow(web, page, depth, hrefs, data, st).state.visited
  {
    FollowExtends(web, page, depth, hrefs, data, st);
  }

  /** The loop over the hrefs of a page leaves every link it does not skip
      visited: either it was visited already or the loop crawled it. */
  lemma {:induction false} FollowVisitsEveryLink(web: Web, page: string, depth: int, hrefs: seq<string>, data: Record, st: State)
    requires depth > 0
    ensures FollowsAll(web, page, hrefs, Follow(web, page, depth, hrefs, data, st).state.visited)
    decreases |hrefs|
  {
    if hrefs != [] {
      var link := web.join(page, hrefs[0]);
      if Skipped(page, link) {
        var r := Follow(web, page, depth, hrefs[1..], data, st);
        FollowVisitsEveryLink(web, page, depth, hrefs[1..], data, st);
        FollowsAllCons(web, page, hrefs, r.state.visited);
      } else {
        var child := Crawl(web, link, depth - 1, Some(page), st);
        var r := Follow(web, page, depth, hrefs[1..], Merge(data, child.data), child.state);
        CrawlVisits(web, link, depth - 1, Some(page), st);
        FollowVisitedGrows(web, page, depth, hrefs[1..], Merge(data, child.data), child.state);
        FollowVisitsEveryLink(web, page, depth, hrefs[1..], Merge(data, child.data), child.state);
        FollowsAllCons(web, page, hrefs, r.state.visited);
      }
    }
  }

  lemma FollowsAllCons(web: Web, page: string, hrefs: seq<string>, visited: set<string>)
    requires hrefs != [] && FollowsAll(web, page, hrefs[1..], visited)
    requires Followable(page, web.join(page, hrefs[0])) ==> web.join(page, hrefs[0]) in visited
    ensures FollowsAll(web, page, hrefs, visited)
  {
    forall k | 0 <= k < |hrefs| && Followable(page, web.join(page, hrefs[k]))
      ensures web.join(page, hrefs[k]) in visited
    {
      if k > 0 {
        assert hrefs[k] == hrefs[1..][k - 1];
      }
    }
  }

  /** Fetch `v` is a page at a depth that lets the loop run, and every link
      of it that the loop does not skip is in `visited`. */
  predicate Expanded(web: Web, v: Visit, visited: set<string>)
  {
    v.depth > 0 && web.fetch(v.url).Loaded? ==>
      FollowsAll(web, v.url, web.fetch(v.url).page.hrefs, visited)
  }

  predicate AllExpanded(web: Web, log: seq<Visit>, from: int, visited: set<string>)
  {
    forall i :: from <= i < |log| && 0 <= i ==> Expanded(web, log[i], visited)
  }

  lemma ExpandedGrows(web: Web, v: Visit, a: set<string>, b: set<string>)
    requires a <= b && Expanded(web, v, a)
    ensures Expanded(web, v, b)
  {
  }

  lemma JoinExpanded(web: Web, childLog: seq<Visit>, childVisited: set<string>, restLog: seq<Visit>, restVisited: set<string>, lo: nat)
    requires childLog <= restLog && childVisited <= restVisited
    requires AllExpanded(web, childLog, lo, childVisited)
    requires AllExpanded(web, restLog, |childLog|, restVisited)
    ensures AllExpanded(web, restLog, lo, restVisited)
  {
    forall i | lo <= i < |restLog| ensures Expanded(web, restLog[i], restVisited) {
      if i < |childLog| {
        assert restLog[i] == childLog[i];
        ExpandedGrows(web, childLog[i], childVisited, restVisited);
      }
    }
  }

  /** Every page a crawl fetches with depth left has all its links that are
      not skipped visited by the time the crawl returns. */
  lemma {:induction false} CrawlFollowsEveryLink(web: Web, url: string, depth: int, referrer: Option<string>, st: State)
    ensures var r := Crawl(web, url, depth, referrer, st);
      AllExpanded(web, r.state.log, |st.log|, r.state.visited)
    decreases depth, 1
  {
    if !(depth < 0 || url in st.visited) {
      var r := Crawl(web, url, depth, referrer, st);
      var marked := Mark(st, Visit(url, depth, referrer));
      match web.fetch(url)
      case Failed(_) =>
        assert r.state == marked;
      case Loaded(page) =>
        if depth > 0 {
          var data := PageRecord(url, page, web.clock(|st.log|));
          assert r == Follow(web, url, depth, page.hrefs, data, marked);
          FollowVisitsEveryLink(web, url, depth, page.hrefs, data, marked);
          FollowLogGrows(web, url, depth, page.hrefs, data, marked);
          FollowFollowsEveryLink(web, url, depth, page.hrefs, data, marked);
          assert r.state.log[|st.log|] == marked.log[|st.log|];
        } else {
          assert r.state == marked;
        }
    }
  }

  lemma {:induction false} FollowFollowsEveryLink(web: Web, page: string, depth: int, hrefs: seq<string>, data: Record, st: State)
    requires depth > 0
    ensures var r := Follow(web, page, depth, hrefs, data, st);
      AllExpanded(web, r.state.log, |st.log|, r.state.visited)
    decreases depth, 0, |hrefs|
  {
    if hrefs != [] {
      var link := web.join(page, hrefs[0]);
      if Skipped(page, link) {
        FollowFollowsEveryLink(web, page, depth, hrefs[1..], data, st);
      } else {
        var child := Crawl(web, link, depth - 1, Some(page), st);
        var rest := Follow(web, page, depth, hrefs[1..], Merge(data, child.data), child.state);
        CrawlFollowsEveryLink(web, link, depth - 1, Some(page), st);
        FollowFollowsEveryLink(web, page, depth, hrefs[1..], Merge(data, child.data), child.state);
        FollowLogGrows(web, page, depth, hrefs[1..], Merge(data, child.data), child.state);
        FollowVisitedGrows(web, page, depth, hrefs[1..], Merge(data, child.data), child.state);
        JoinExpanded(web, child.state.log, child.state.visited, rest.state.log, rest.state.visited, |st.log|);
      }
    }
  }

  // ---------------------------------------------------------------------
  // Order: depth first, hrefs left to right

  /** The loop walks its hrefs from left to right, finishing each followed
      link's whole crawl before it looks at the next href: running it over
      `xs + ys` is running it over `xs` and then, from the record and state
      that leaves, over `ys`. */
  lemma {:induction false} FollowSplit(web: Web, page: string, depth: int, xs: seq<string>, ys: seq<string>, data: Record, st: State)
    requires depth > 0
    ensures var front := Follow(web, page, depth, xs, data, st);
      Follow(web, page, depth, xs + ys, data, st) == Follow(web, page, depth, ys, front.data, front.state)
    decreases |xs|
  {
    if xs != [] {
      var link := web.join(page, xs[0]);
      assert (xs + ys)[0] == xs[0];
      assert (xs + ys)[1..] == xs[1..] + ys;
      if Skipped(page, link) {
        FollowSplit(web, page, depth, xs[1..], ys, data, st);
      } else {
        var child := Crawl(web, link, depth - 1, Some(page), st);
        FollowSplit(web, page, depth, xs[1..], ys, Merge(data, child.data), child.state);
      }
    } else {
      assert xs + ys == ys;
    }
  }

  /** Depth first means a page first reached deep down, with little depth
      left, is not expanded again when a shallower path reaches it later.
      With depth 2, start page s linking to [a, b], a linking to [b] and b
      linking to [c]: the crawl fetches s, then a at depth 1, then b at
      depth 0 through a; when the loop of s reaches b it is already visited,
      so c, two links from s, is never fetched, and the record's url is
      b's. */
  lemma VisitedFirstAtDepthZero(web: Web, s: string, a: string, b: string, c: string, ps: Page, pa: Page, pb: Page,
                                depth: int, st: State)
    requires depth == 2 && s !in st.visited && a !in st.visited && b !in st.visited && c !in st.visited
    requires s != a && s != b && s != c && a != b && a != c && b != c
    requires web.fetch(s) == Loaded(ps) && |ps.hrefs| == 2
    requires web.join(s, ps.hrefs[0]) == a && web.join(s, ps.hrefs[1]) == b
    requires web.fetch(a) == Loaded(pa) && |pa.hrefs| == 1 && web.join(a, pa.hrefs[0]) == b
    requires web.fetch(b) == Loaded(pb) && |pb.hrefs| == 1 && web.join(b, pb.hrefs[0]) == c
    requires Followable(s, a) && Followable(s, b) && Followable(a, b) && Followable(b, c)
    ensures var r := Crawl(web, s, depth, None, st);
      && r.state.log == st.log + [Visit(s, 2, None), Visit(a, 1, Some(s)), Visit(b, 0, Some(a))]
      && c !in r.state.visited
      && r.data.url == Some(Str(b))
  {
    var ds := PageRecord(s, ps, web.clock(|st.log|));
    var da := PageRecord(a, pa, web.clock(|st.log| + 1));
    var db := PageRecord(b, pb, web.clock(|st.log| + 2));
    ScenarioCrawl(web, s, a, b, ps, pa, pb, depth, st);
    ThreeMarks(st, Visit(s, 2, None), Visit(a, 1, Some(s)), Visit(b, 0, Some(a)));
    NotAmongThree(st.visited, s, a, b, c);
    MergedUrl(ds, da, db);
  }

  /** The whole crawl of the example, as a record and a state. */
  lemma ScenarioCrawl(web: Web, s: string, a: string, b: string, ps: Page, pa: Page, pb: Page, depth: int, st: State)
    requires depth == 2 && s !in st.visited && a !in st.visited && b !in st.visited
    requires s != a && s != b && a != b
    requires web.fetch(s) == Loaded(ps) && |ps.hrefs| == 2
    requires web.join(s, ps.hrefs[0]) == a && web.join(s, ps.hrefs[1]) == b
    requires web.fetch(a) == Loaded(pa) && |pa.hrefs| == 1 && web.join(a, pa.hrefs[0]) == b
    requires web.fetch(b) == Loaded(pb)
    requires Followable(s, a) && Followable(s, b) && Followable(a, b)
    ensures Crawl(web, s, depth, None, st)
         == Crawled(Merge(Merge(PageRecord(s, ps, web.clock(|st.log|)),
                                Merge(PageRecord(a, pa, web.clock(|st.log| + 1)), PageRecord(b, pb, web.clock(|st.log| + 2)))),
                          Empty),
                    Mark(Mark(Mark(st, Visit(s, 2, None)), Visit(a, 1, Some(s))), Visit(b, 0, Some(a))))
  {
    var mb := Mark(Mark(Mark(st, Visit(s, 2, None)), Visit(a, 1, Some(s))), Visit(b, 0, Some(a)));
    var d1 := Merge(PageRecord(s, ps, web.clock(|st.log|)),
                    Merge(PageRecord(a, pa, web.clock(|st.log| + 1)), PageRecord(b, pb, web.clock(|st.log| + 2))));
    ScenarioFirstLink(web, s, a, b, ps, pa, pb, depth, st);
    OneLinkFollow(web, s, depth, [ps.hrefs[1]], d1, mb);
  }

  /** The example up to the second href of s: following a has fetched a
      and b. */
  lemma ScenarioFirstLink(web: Web, s: string, a: string, b: string, ps: Page, pa: Page, pb: Page, depth: int, st: State)
    requires depth == 2 && s !in st.visited && a !in st.visited && b !in st.visited
    requires s != a && s != b && a != b
    requires web.fetch(s) == Loaded(ps) && |ps.hrefs| == 2 && web.join(s, ps.hrefs[0]) == a
    requires web.fetch(a) == Loaded(pa) && |pa.hrefs| == 1 && web.join(a, pa.hrefs[0]) == b
    requires web.fetch(b) == Loaded(pb)
    requires Followable(s, a) && Followable(a, b)
    ensures Crawl(web, s, depth, None, st)
         == Follow(web, s, depth, [ps.hrefs[1]],
                   Merge(PageRecord(s, ps, web.clock(|st.log|)),
                         Merge(PageRecord(a, pa, web.clock(|st.log| + 1)), PageRecord(b, pb, web.clock(|st.log| + 2)))),
                   Mark(Mark(Mark(st, Visit(s, 2, None)), Visit(a, 1, Some(s))), Visit(b, 0, Some(a))))
  {
    var ms := Mark(st, Visit(s, 2, None));
    var ds := PageRecord(s, ps, web.clock(|st.log|));
    assert |ms.log| == |st.log| + 1;
    LoadedCrawl(web, s, 2, None, st, ps);
    TwoHrefsFollow(web, s, 2, ps.hrefs, ds, ms);
    ReachedThroughA(web, s, a, b, ms, pa, pb, 1);
  }

  /** With two hrefs whose first is followed, the loop follows the first
      and then runs over the second alone. */
  lemma TwoHrefsFollow(web: Web, page: string, depth: int, hrefs: seq<string>, data: Record, st: State)
    requires depth > 0 && |hrefs| == 2 && Followable(page, web.join(page, hrefs[0]))
    ensures var child := Crawl(web, web.join(page, hrefs[0]), depth - 1, Some(page), st);
      Follow(web, page, depth, hrefs, data, st) == Follow(web, page, depth, [hrefs[1]], Merge(data, child.data), child.state)
  {
    assert hrefs == [hrefs[0]] + [hrefs[1]];
    FollowSplit(web, page, depth, [hrefs[0]], [hrefs[1]], data, st);
    OneLinkFollow(web, page, depth, [hrefs[0]], data, st);
  }

  // The three lemmas below are single-step facts about the example above,
  // split out only to keep VisitedFirstAtDepthZero cheap to verify.

  lemma MergedUrl(ds: Record, da: Record, db: Record)
    requires db.url.Some?
    ensures Merge(Merge(ds, Merge(da, db)), Empty).url == db.url
  {
  }

  lemma NotAmongThree(visited: set<string>, s: string, a: string, b: string, c: string)
    requires c !in visited && c != s && c != a && c != b
    ensures c !in visited + {s, a, b}
  {
  }

  lemma ThreeMarks(st: State, u: Visit, v: Visit, w: Visit)
    ensures Mark(Mark(Mark(st, u), v), w) == State(st.visited + {u.url, v.url, w.url}, st.log + [u, v, w])
  {
  }

  /** The crawl of `a` at depth 1 fetches `a`, then `b` at depth 0, and
      stops there. */
  lemma ReachedThroughA(web: Web, s: string, a: string, b: string, ms: State, pa: Page, pb: Page, depth: int)
    requires depth == 1 && a !in ms.visited && b !in ms.visited && a != b
    requires web.fetch(a) == Loaded(pa) && |pa.hrefs| == 1 && web.join(a, pa.hrefs[0]) == b
    requires web.fetch(b) == Loaded(pb) && Followable(a, b)
    ensures Crawl(web, a, depth, Some(s), ms)
         == Crawled(Merge(PageRecord(a, pa, web.clock(|ms.log|)), PageRecord(b, pb, web.clock(|ms.log| + 1))),
                    Mark(Mark(ms, Visit(a, 1, Some(s))), Visit(b, 0, Some(a))))
  {
    var ma := Mark(ms, Visit(a, depth, Some(s)));
    LoadedCrawl(web, a, depth, Some(s), ms, pa);
    LeafCrawl(web, b, Some(a), ma, pb);
    OneLinkFollow(web, a, depth, pa.hrefs, PageRecord(a, pa, web.clock(|ms.log|)), ma);
  }

  lemma LoadedCrawl(web: Web, u: string, depth: int, referrer: Option<string>, st: State, p: Page)
    requires depth > 0 && u !in st.visited && web.fetch(u) == Loaded(p)
    ensures Crawl(web, u, depth, referrer, st)
         == Follow(web, u, depth, p.hrefs, PageRecord(u, p, web.clock(|st.log|)), Mark(st, Visit(u, depth, referrer)))
  {
  }

  lemma LeafCrawl(web: Web, u: string, referrer: Option<string>, st: State, p: Page)
    requires u !in st.visited && web.fetch(u) == Loaded(p)
    ensures Crawl(web, u, 0, referrer, st) == Crawled(PageRecord(u, p, web.clock(|st.log|)), Mark(st, Visit(u, 0, referrer)))
  {
  }

  lemma OneLinkFollow(web: Web, page: string, depth: int, hrefs: seq<string>, data: Record, st: State)
    requires depth > 0 && |hrefs| == 1 && Followable(page, web.join(page, hrefs[0]))
    ensures var child := Crawl(web, web.join(page, hrefs[0]), depth - 1, Some(page), st);
      Follow(web, page, depth, hrefs, data, st) == Crawled(Merge(data, child.data), child.state)
  {
    assert hrefs[1..] == [];
  }

  // ---------------------------------------------------------------------
  // One top-level crawl

  /** Over one top-level crawl the fetch log is exactly the tree of
      followed links: the first fetch is the start URL, every later fetch
      is a followed link of an earlier page one level up, and every link
      that is not skipped on a page fetched with depth left is the URL of
      some fetch. */
  lemma CrawlFollowsLinks(web: Web, url: string, depth: int)
    ensures var r := Crawl(web, url, depth, None, State({}, []));
      && (depth >= 0 ==> |r.state.log| > 0 && r.state.log[0] == Visit(url, depth, None))
      && AllHaveParents(web, r.state.log, 1)
      && AllExpanded(web, r.state.log, 0, UrlsOf(r.state.log))
  {
    var r := Crawl(web, url, depth, None, State({}, []));
    CrawlExtends(web, url, depth, None, State({}, []));
    CrawlHasParents(web, url, depth, None, State({}, []));
    CrawlFollowsEveryLink(web, url, depth, None, State({}, []));
    FetchedAtMostOnce(web, url, depth);
  }
}

=== FILE: crawl_properties.dfy ===
/** What one crawl amounts to, stated over its fetch log: how deep it goes,
    which links it follows, how its records combine, and the entry point
    that starts it. */
module CrawlProperties {
  import opened Options
  import opened Dom
  import opened Links
  import opened Sections
  import opened Crawler

  // ---------------------------------------------------------------------
  // Depth and the links that are followed

  /** A fetch reached through a link of `referrer`: the link was neither a
      contact link nor on another host, and the call had a depth in
      [0, bound). */
  predicate Followed(v: Visit, bound: int)
  {
    && v.referrer.Some?
    && !IsContactLink(v.url) && IsInternalLink(v.referrer.value, v.url)
    && 0 <= v.depth < bound
  }

  /** Every fetch of the log from position `from` on was reached through a
      followed link with a depth below `bound`. */
  predicate AllFollowed(log: seq<Visit>, from: int, bound: int)
  {
    forall i :: from <= i < |log| && 0 <= i ==> Followed(log[i], bound)
  }

  /** The fetches of a followed link's crawl, then those of the rest of the
      loop, are all followed fetches. */
  lemma JoinFollowed(childLog: seq<Visit>, restLog: seq<Visit>, lo: nat, page: string, link: string, depth: int)
    requires depth > 0 && !Skipped(page, link)
    requires lo <= |childLog| && childLog <= restLog
    requires lo < |childLog| ==> childLog[lo] == Visit(link, depth - 1, Some(page))
    requires AllFollowed(childLog, lo + 1, depth - 1)
    requires AllFollowed(restLog, |childLog|, depth)
    ensures AllFollowed(restLog, lo, depth)
  {
    forall i | lo <= i < |restLog| ensures Followed(restLog[i], depth) {
      if i < |childLog| {
        assert restLog[i] == childLog[i];
        if i > lo {
          assert Followed(childLog[i], depth - 1);
        }
      }
    }
  }

  /** The first fetch of a crawl is its own URL at its own depth; every
      later one was reached through a same-site, non-contact link with a
      smaller, non-negative depth. So recursion never nests deeper than the
      initial depth, and skipped links are never fetched. */
  lemma {:induction false} CrawlDiscipline(web: Web, url: string, depth: int, referrer: Option<string>, st: State)
    ensures AllFollowed(Crawl(web, url, depth, referrer, st).state.log, |st.log| + 1, depth)
    decreases depth, 1
  {
    if !(depth < 0 || url in st.visited) {
      var r := Crawl(web, url, depth, referrer, st);
      var marked := Mark(st, Visit(url, depth, referrer));
      match web.fetch(url)
      case Failed(_) =>
      case Loaded(page) =>
        if depth > 0 {
          var data := PageRecord(url, page, web.clock(|st.log|));
          assert r == Follow(web, url, depth, page.hrefs, data, marked);
          FollowDiscipline(web, url, depth, page.hrefs, data, marked);
          assert |marked.log| == |st.log| + 1;
        }
    }
  }

  lemma {:induction false} FollowDiscipline(web: Web, page: string, depth: int, hrefs: seq<string>, data: Record, st: State)
    requires depth > 0
    ensures AllFollowed(Follow(web, page, depth, hrefs, data, st).state.log, |st.log|, depth)
    decreases depth, 0, |hrefs|
  {
    if hrefs != [] {
      var r := Follow(web, page, depth, hrefs, data, st);
      var link := web.join(page, hrefs[0]);
      if Skipped(page, link) {
        assert r == Follow(web, page, depth, hrefs[1..], data, st);
        FollowDiscipline(web, page, depth, hrefs[1..], data, st);
      } else {
        var child := Crawl(web, link, depth - 1, Some(page), st);
        var rest := Follow(web, page, depth, hrefs[1..], Merge(data, child.data), child.state);
        assert r == rest;
        CrawlDiscipline(web, link, depth - 1, Some(page), st);
        CrawlLogGrows(web, link, depth - 1, Some(page), st);
        FollowDiscipline(web, page, depth, hrefs[1..], Merge(data, child.data), child.state);
        FollowLogGrows(web, page, depth, hrefs[1..], Merge(data, child.data), child.state);
        JoinFollowed(child.state.log, rest.state.log, |st.log|, page, link, depth);
      }
    }
  }

  // ---------------------------------------------------------------------
  // The record as the merge of every fetched page's own record

  /** Records merged left to right, each one's keys replacing the earlier
      ones'. */
  function MergeAll(rs: seq<Record>): Record
  {
    if rs == [] then Empty else Merge(MergeAll(rs[..|rs| - 1]), rs[|rs| - 1])
  }

  /** Merging a concatenation is merging the two parts' merges. */
  lemma {:induction false} MergeAllConcat(a: seq<Record>, b: seq<Record>)
    ensures MergeAll(a + b) == Merge(MergeAll(a), MergeAll(b))
    decreases |b|
  {
    if b == [] {
      assert a + b == a;
      MergeEmpty(MergeAll(a));
    } else {
      var front := b[..|b| - 1];
      assert (a + b)[..|a + b| - 1] == a + front;
      MergeAllConcat(a, front);
      MergeAssociative(MergeAll(a), MergeAll(front), b[|b| - 1]);
    }
  }

  /** A single record merged into nothing is itself. */
  lemma MergeAllSingleton(x: Record)
    ensures MergeAll([x]) == x
  {
    assert [x][..0] == [];
  }

  /** The record scrape_page builds for a fetch on its own, before any child
      is merged into it; `i` is the fetch's position in the log. */
  function OwnRecord(web: Web, v: Visit, i: nat): Record
  {
    match web.fetch(v.url)
    case Failed(message) => ErrorRecord(v.url, message)
    case Loaded(page) => PageRecord(v.url, page, web.clock(i))
  }

  /** The own records of fetches lo..hi-1 of the log. */
  function OwnRecords(web: Web, log: seq<Visit>, lo: nat, hi: nat): (r: seq<Record>)
    requires lo <= hi <= |log|
    ensures |r| == hi - lo
    decreases hi - lo
  {
    if lo == hi then [] else [OwnRecord(web, log[lo], lo)] + OwnRecords(web, log, lo + 1, hi)
  }

  /** The k-th own record from lo is that of fetch lo + k. */
  lemma {:induction false} OwnRecordsAt(web: Web, log: seq<Visit>, lo: nat, hi: nat, k: nat)
    requires lo <= hi <= |log| && k < hi - lo
    ensures OwnRecords(web, log, lo, hi)[k] == OwnRecord(web, log[lo + k], lo + k)
    decreases hi - lo
  {
    if k > 0 {
      OwnRecordsAt(web, log, lo + 1, hi, k - 1);
    }
  }

  /** The own records of lo..hi-1 are those of lo..mid-1 then mid..hi-1,
      where the first part may be read off any log agreeing below mid. */
  lemma {:induction false} OwnRecordsSplit(web: Web, prefix: seq<Visit>, log: seq<Visit>, lo: nat, mid: nat, hi: nat)
    requires lo <= mid <= hi <= |log| && mid == |prefix| && prefix <= log
    ensures OwnRecords(web, log, lo, hi) == OwnRecords(web, prefix, lo, mid) + OwnRecords(web, log, mid, hi)
    decreases mid - lo
  {
    if lo < mid {
      OwnRecordsSplit(web, prefix, log, lo + 1, mid, hi);
      assert prefix[lo] == log[lo];
      var head := [OwnRecord(web, log[lo], lo)];
      calc {
        OwnRecords(web, log, lo, hi);
        head + OwnRecords(web, log, lo + 1, hi);
        head + (OwnRecords(web, prefix, lo + 1, mid) + OwnRecords(web, log, mid, hi));
        (head + OwnRecords(web, prefix, lo + 1, mid)) + OwnRecords(web, log, mid, hi);
        OwnRecords(web, prefix, lo, mid) + OwnRecords(web, log, mid, hi);
      }
    } else {
      assert OwnRecords(web, prefix, lo, mid) == [];
    }
  }

  /** dict.update over the whole traversal: the record a crawl returns is
      the own records of all the pages it fetched, merged in the order they
      were fetched, so a later page's keys replace an earlier page's. */
  lemma {:induction false} CrawlRecordIsMergeOfFetches(web: Web, url: string, depth: int, referrer: Option<string>, st: State)
    ensures Crawl(web, url, depth, referrer, st).data
      == MergeAll(OwnRecords(web, Crawl(web, url, depth, referrer, st).state.log, |st.log|, |Crawl(web, url, depth, referrer, st).state.log|))
    decreases depth, 1
  {
    var r := Crawl(web, url, depth, referrer, st);
    var lo, n := |st.log|, |r.state.log|;
    CrawlLogGrows(web, url, depth, referrer, st);
    if depth < 0 || url in st.visited {
      assert OwnRecords(web, r.state.log, lo, n) == [];
    } else {
      var v := Visit(url, depth, referrer);
      var marked := Mark(st, v);
      var own := OwnRecords(web, r.state.log, lo, lo + 1);
      assert own == [OwnRecord(web, v, lo)];
      MergeAllSingleton(OwnRecord(web, v, lo));
      match web.fetch(url)
      case Failed(_) =>
      case Loaded(page) =>
        if depth > 0 {
          var data := PageRecord(url, page, web.clock(lo));
          FollowRecordIsMergeOfFetches(web, url, depth, page.hrefs, data, marked);
          var rest := OwnRecords(web, r.state.log, lo + 1, n);
          OwnRecordsSplit(web, r.state.log[..lo + 1], r.state.log, lo, lo + 1, n);
          assert OwnRecords(web, r.state.log[..lo + 1], lo, lo + 1) == own;
          MergeAllConcat(own, rest);
        }
    }
  }

  lemma {:induction false} FollowRecordIsMergeOfFetches(web: Web, page: string, depth: int, hrefs: seq<string>, data: Record, st: State)
    requires depth > 0
    ensures var r := Follow(web, page, depth, hrefs, data, st);
      r.data == Merge(data, MergeAll(OwnRecords(web, r.state.log, |st.log|, |r.state.log|)))
    decreases depth, 0, |hrefs|
  {
    if hrefs == [] {
      assert OwnRecords(web, st.log, |st.log|, |st.log|) == [];
      MergeEmpty(data);
    } else {
      var link := web.join(page, hrefs[0]);
      if Skipped(page, link) {
        FollowRecordIsMergeOfFetches(web, page, depth, hrefs[1..], data, st);
        assert Follow(web, page, depth, hrefs, data, st) == Follow(web, page, depth, hrefs[1..], data, st);
      } else {
        var child := Crawl(web, link, depth - 1, Some(page), st);
        var rest := Follow(web, page, depth, hrefs[1..], Merge(data, child.data), child.state);
        CrawlRecordIsMergeOfFetches(web, link, depth - 1, Some(page), st);
        FollowRecordIsMergeOfFetches(web, page, depth, hrefs[1..], Merge(data, child.data), child.state);
        FollowLogGrows(web, page, depth, hrefs[1..], Merge(data, child.data), child.state);
        var lo, mid, hi := |st.log|, |child.state.log|, |rest.state.log|;
        OwnRecordsSplit(web, child.state.log, rest.state.log, lo, mid, hi);
        var front, back := OwnRecords(web, child.state.log, lo, mid), OwnRecords(web, rest.state.log, mid, hi);
        MergeAllConcat(front, back);
        MergeAssociative(data, MergeAll(front), MergeAll(back));
        assert Follow(web, page, depth, hrefs, data, st) == rest;
        calc {
          rest.data;
          Merge(Merge(data, child.data), MergeAll(back));
          Merge(Merge(data, MergeAll(front)), MergeAll(back));
          Merge(data, Merge(MergeAll(front), MergeAll(back)));
          Merge(data, MergeAll(front + back));
          Merge(data, MergeAll(OwnRecords(web, rest.state.log, lo, hi)));
        }
      }
    }
  }

  /** The "url" and "sections_content" of a crawl's record are those of the
      LAST page it fetched: the starting page keeps them only when nothing
      else was fetched. */
  lemma LastFetchWins(web: Web, url: string, depth: int, referrer: Option<string>, st: State)
    requires !(depth < 0 || url in st.visited)
    ensures var r := Crawl(web, url, depth, referrer, st);
      LastFetchWon(web, r.state.log, |st.log|, r.data, url)
  {
    var r := Crawl(web, url, depth, referrer, st);
    CrawlRecordIsMergeOfFetches(web, url, depth, referrer, st);
    CrawlFetchesDistinct(web, url, depth, referrer, st);
    LastRecordWins(web, r.state.log, |st.log|, r.data, url);
  }

  /** The fetches from position lo of `log` began with `url`, and `data`
      has the url and sections_content of the last of them; it has the url
      `url` exactly when nothing else was fetched. */
  predicate LastFetchWon(web: Web, log: seq<Visit>, lo: nat, data: Record, url: string)
  {
    var n := |log|;
    && lo < n
    && data.url == Some(Str(log[n - 1].url))
    && data.sectionsContent.Some?
    && data.sectionsContent == OwnRecord(web, log[n - 1], n - 1).sectionsContent
    && (data.url == Some(Str(url)) <==> n == lo + 1)
  }

  /** The merge of the own records of fetches lo.. of a log has the url and
      sections_content of the last fetch; it has the url of fetch lo only
      when that is the last one, given that the two URLs differ otherwise. */
  lemma LastRecordWins(web: Web, log: seq<Visit>, lo: nat, data: Record, url: string)
    requires lo < |log| && log[lo].url == url
    requires |log| > lo + 1 ==> log[lo].url != log[|log| - 1].url
    requires data == MergeAll(OwnRecords(web, log, lo, |log|))
    ensures LastFetchWon(web, log, lo, data, url)
  {
    var n := |log|;
    var own := OwnRecords(web, log, lo, n);
    OwnRecordShape(web, log[n - 1], n - 1);
    OwnRecordsAt(web, log, lo, n, n - 1 - lo);
    MergeAllLast(own);
  }

  /** Every own record carries its page's url and a sections_content. */
  lemma OwnRecordShape(web: Web, v: Visit, i: nat)
    ensures OwnRecord(web, v, i).url == Some(Str(v.url))
    ensures OwnRecord(web, v, i).sectionsContent.Some?
  {
  }

  /** When the last record has a key, the merge has that record's value. */
  lemma MergeAllLast(rs: seq<Record>)
    requires rs != [] && rs[|rs| - 1].url.Some? && rs[|rs| - 1].sectionsContent.Some?
    ensures MergeAll(rs).url == rs[|rs| - 1].url
    ensures MergeAll(rs).sectionsContent == rs[|rs| - 1].sectionsContent
  {
  }

  /** A crawl that fetches starts its log with its own URL, and every later
      fetch of it is of a different URL. */
  lemma CrawlFetchesDistinct(web: Web, url: string, depth: int, referrer: Option<string>, st: State)
    requires !(depth < 0 || url in st.visited)
    ensures var log := Crawl(web, url, depth, referrer, st).state.log;
      && |st.log| < |log| && log[|st.log|].url == url
      && (|log| > |st.log| + 1 ==> log[|st.log|].url != log[|log| - 1].url)
  {
    var r := Crawl(web, url, depth, referrer, st);
    CrawlExtends(web, url, depth, referrer, st);
    if |r.state.log| > |st.log| + 1 {
      ExtendsDistinct(st, r.state, |st.log|, |r.state.log| - 1);
    }
  }

  lemma ExtendsDistinct(before: State, after: State, i: nat, j: nat)
    requires Extends(before, after) && |before.log| <= i < j < |after.log|
    ensures after.log[i].url != after.log[j].url
  {
  }

  /** A fetch that fails yields exactly {url, sections_content: "No content
      available", error} and nothing else is fetched below it. */
  lemma ErrorShape(web: Web, url: string, depth: int, referrer: Option<string>, st: State, message: string)
    requires !(depth < 0 || url in st.visited) && web.fetch(url) == Failed(message)
    ensures var r := Crawl(web, url, depth, referrer, st);
      && Keys(r.data) == {"url", "sections_content", "error"}
      && r.data.url == Some(Str(url)) && r.data.sectionsContent == Some(Str(NoContent))
      && r.data.error == Some(Str(message))
      && r.state == State(st.visited + {url}, st.log + [Visit(url, depth, referrer)])
  {
  }

  /** At depth 0 a loaded page is fetched alone and its record is its own:
      its URL, its title ("No Title" when it has no title element), the
      timestamp and its sections. */
  lemma DepthZeroFetchesOnlyThePage(web: Web, url: string, referrer: Option<string>, st: State, page: Page)
    requires url !in st.visited && web.fetch(url) == Loaded(page)
    ensures var r := Crawl(web, url, 0, referrer, st);
      && r.state == State(st.visited + {url}, st.log + [Visit(url, 0, referrer)])
      && r.data == Record(Some(Str(url)), Some(TitleValue(page.title)), Some(Str(web.clock(|st.log|) + "Z")),
                          Some(SectionList(page.sections)), None)
  {
  }

  /** A page parsed from a document and fetched at depth 0 has as record
      the title of the document's first title element ("No Title" when it
      has none) and the sections scraped from the document. */
  lemma ParsedPageRecord(web: Web, url: string, referrer: Option<string>, st: State, doc: seq<Node>)
    requires url !in st.visited && web.fetch(url) == Loaded(ParsePage(doc))
    ensures var r := Crawl(web, url, 0, referrer, st);
      && r.data.url == Some(Str(url))
      && r.data.title == Some(TitleValue(TitleElementOf(doc)))
      && r.data.sectionsContent == Some(SectionList(ExtractSections(doc)))
      && ((forall n :: n in Descendants(doc) ==> !IsTitleElement(n)) ==> r.data.title == Some(Str(NoTitle)))
  {
    DepthZeroFetchesOnlyThePage(web, url, referrer, st, ParsePage(doc));
    if forall n :: n in Descendants(doc) ==> !IsTitleElement(n) {
      TitleDefault(doc);
    }
  }

  /** Over one top-level crawl no URL is fetched twice, even on a cyclic
      link graph, the visited set ends as exactly the fetched URLs, and no
      fetch is more than `depth` links away from the start. */
  lemma FetchedAtMostOnce(web: Web, url: string, depth: int)
    ensures var r := Crawl(web, url, depth, None, State({}, []));
      && NoRepeats(r.state.log)
      && r.state.visited == UrlsOf(r.state.log)
      && (forall i :: 0 <= i < |r.state.log| ==> 0 <= r.state.log[i].depth <= depth)
  {
    var r := Crawl(web, url, depth, None, State({}, []));
    CrawlDiscipline(web, url, depth, None, State({}, []));
    CrawlExtends(web, url, depth, None, State({}, []));
    CrawlLogGrows(web, url, depth, None, State({}, []));
    forall i | 0 <= i < |r.state.log| ensures 0 <= r.state.log[i].depth <= depth {
      if i > 0 {
        assert Followed(r.state.log[i], depth);
      }
    }
  }

  /** The loop over links that all lead back to an already visited page
      fetches nothing. */
  lemma {:induction false} FollowSelfLinks(web: Web, page: string, depth: int, hrefs: seq<string>, data: Record, st: State)
    requires depth > 0 && page in st.visited
    requires forall k :: 0 <= k < |hrefs| ==> web.join(page, hrefs[k]) == page
    ensures Follow(web, page, depth, hrefs, data, st).state == st
    decreases |hrefs|
  {
    if hrefs != [] {
      assert web.join(page, hrefs[0]) == page;
      assert forall k :: 0 <= k < |hrefs[1..]| ==> web.join(page, hrefs[1..][k]) == page by {
        forall k | 0 <= k < |hrefs[1..]| ensures web.join(page, hrefs[1..][k]) == page {
          assert hrefs[1..][k] == hrefs[k + 1];
        }
      }
      var child := Crawl(web, page, depth - 1, Some(page), st);
      FollowSelfLinks(web, page, depth, hrefs[1..], data, st);
      FollowSelfLinks(web, page, depth, hrefs[1..], Merge(data, child.data), st);
    }
  }

  /** A page whose every link leads back to itself is fetched exactly once,
      whatever the depth: the visited set stops the cycle. */
  lemma SelfLinkFetchedOnce(web: Web, url: string, depth: int, page: Page)
    requires depth >= 0 && web.fetch(url) == Loaded(page)
    requires forall k :: 0 <= k < |page.hrefs| ==> web.join(url, page.hrefs[k]) == url
    ensures Crawl(web, url, depth, None, State({}, [])).state.log == [Visit(url, depth, None)]
  {
    var marked := Mark(State({}, []), Visit(url, depth, None));
    if depth > 0 {
      FollowSelfLinks(web, url, depth, page.hrefs, PageRecord(url, page, web.clock(0)), marked);
    }
  }
}

=== FILE: dom.dfy ===
/** The parsed HTML document the extractor and the crawler query, standing
    in for the tree BeautifulSoup builds: text nodes and elements with a tag,
    class tokens, an optional href and children. Only the queries the crawl
    core uses are modelled: `find_all` (a filter over the pre-order
    descendants), `find`, `get_text(strip=True)` and `.string`. */
module Dom {
  import opened Options
  import opened Text

  datatype Node =
    | TextNode(content: string)
    | Element(tag: string, classes: seq<string>, href: Option<string>, children: seq<Node>)

  function ChildrenOf(n: Node): seq<Node>
  {
    if n.Element? then n.children else []
  }

  /** Every node of a forest in document (pre-order) order: each node is
      followed by everything below it, then by its next sibling. This is the
      order in which `find_all` and `.descendants` visit a tree. */
  function Descendants(nodes: seq<Node>): (r: seq<Node>)
    ensures |nodes| <= |r|
    decreases nodes
  {
    if |nodes| == 0 then []
    else
      var below := if nodes[0].Element? then Descendants(nodes[0].children) else [];
      [nodes[0]] + below + Descendants(nodes[1..])
  }

  /** The walk visits every node of the forest and, below any element it
      visits, every child of it: nothing in the tree is skipped. */
  lemma {:induction false} DescendantsComplete(nodes: seq<Node>)
    ensures forall k :: 0 <= k < |nodes| ==> nodes[k] in Descendants(nodes)
    ensures forall n :: n in Descendants(nodes) && n.Element? ==> forall c :: c in n.children ==> c in Descendants(nodes)
    decreases nodes
  {
    if nodes != [] {
      var below := Descendants(ChildrenOf(nodes[0]));
      var rest := Descendants(nodes[1..]);
      assert Descendants(nodes) == [nodes[0]] + below + rest;
      if nodes[0].Element? {
        DescendantsComplete(nodes[0].children);
      }
      DescendantsComplete(nodes[1..]);
      assert forall k :: 1 <= k < |nodes| ==> nodes[k] == nodes[1..][k - 1];
    }
  }

  /** Walking two forests one after the other is walking their
      concatenation: document order is preserved across a split. */
  lemma {:induction false} DescendantsConcat(a: seq<Node>, b: seq<Node>)
    ensures Descendants(a + b) == Descendants(a) + Descendants(b)
    decreases a
  {
    if a != [] {
      assert (a + b)[0] == a[0];
      assert (a + b)[1..] == a[1..] + b;
      DescendantsConcat(a[1..], b);
      var below := Descendants(ChildrenOf(a[0]));
      calc {
        Descendants(a + b);
        [a[0]] + below + Descendants(a[1..] + b);
        [a[0]] + below + (Descendants(a[1..]) + Descendants(b));
        ([a[0]] + below + Descendants(a[1..])) + Descendants(b);
        Descendants(a) + Descendants(b);
      }
    } else {
      assert a + b == b;
    }
  }

  /** The elements of `s` satisfying `p`, in their order in `s`. */
  function Filter<T(!new)>(s: seq<T>, p: T -> bool): (r: seq<T>)
    ensures |r| <= |s|
    ensures forall x :: x in r <==> x in s && p(x)
  {
    if s == [] then []
    else
      assert forall x :: x in s <==> x == s[0] || x in s[1..];
      (if p(s[0]) then [s[0]] else []) + Filter(s[1..], p)
  }

  /** Filtering distributes over concatenation, so whatever `a` contributes
      comes before whatever `b` contributes. */
  lemma {:induction false} FilterConcat<T(!new)>(a: seq<T>, b: seq<T>, p: T -> bool)
    ensures Filter(a + b, p) == Filter(a, p) + Filter(b, p)
    decreases |a|
  {
    if a != [] {
      assert (a + b)[0] == a[0];
      assert (a + b)[1..] == a[1..] + b;
      FilterConcat(a[1..], b, p);
      var here := if p(a[0]) then [a[0]] else [];
      calc {
        Filter(a + b, p);
        here + Filter(a[1..] + b, p);
        here + (Filter(a[1..], p) + Filter(b, p));
        (here + Filter(a[1..], p)) + Filter(b, p);
        Filter(a, p) + Filter(b, p);
      }
    } else {
      assert a + b == b;
    }
  }

  function Map<T, U>(s: seq<T>, f: T -> U): (r: seq<U>)
    ensures |r| == |s|
    ensures forall k :: 0 <= k < |s| ==> r[k] == f(s[k])
  {
    if s == [] then [] else [f(s[0])] + Map(s[1..], f)
  }
  lemma InFilter<T(!new)>(s: seq<T>, p: T -> bool, x: T)
    requires x in s && p(x)
    ensures x in Filter(s, p)
  {
  }

  lemma InMap<T, U>(s: seq<T>, f: T -> U, x: T)
    requires x in s
    ensures f(x) in Map(s, f)
  {
    var i :| 0 <= i < |s| && s[i] == x;
    assert Map(s, f)[i] == f(x);
  }

  /** The images of the elements of `s`, each a sequence, joined in order. */
  function FlatMap<T, U>(s: seq<T>, f: T -> seq<U>): seq<U>
  {
    if s == [] then [] else f(s[0]) + FlatMap(s[1..], f)
  }

  lemma {:induction false} FlatMapConcat<T, U>(a: seq<T>, b: seq<T>, f: T -> seq<U>)
    ensures FlatMap(a + b, f) == FlatMap(a, f) + FlatMap(b, f)
    decreases |a|
  {
    if a == [] {
      assert a + b == b;
    } else {
      assert (a + b)[0] == a[0];
      assert (a + b)[1..] == a[1..] + b;
      FlatMapConcat(a[1..], b, f);
    }
  }


  /** The i-th image of a filtered sequence is the image of an element of
      the original sequence that satisfies the filter. */
  lemma FilterMapSource<T(!new), U>(s: seq<T>, p: T -> bool, f: T -> U, i: nat)
    requires i < |Filter(s, p)|
    ensures Filter(s, p)[i] in s && p(Filter(s, p)[i])
    ensures Map(Filter(s, p), f)[i] == f(Filter(s, p)[i])
  {
    assert Filter(s, p)[i] in Filter(s, p);
  }

  /** Every image of a filtered sequence is the image of an element of the
      original sequence that satisfies the filter. */
  lemma FilterMapProvenance<T(!new), U>(s: seq<T>, p: T -> bool, f: T -> U)
    ensures forall i :: 0 <= i < |Map(Filter(s, p), f)| ==>
      exists x :: x in s && p(x) && Map(Filter(s, p), f)[i] == f(x)
  {
    var m := Map(Filter(s, p), f);
    forall i | 0 <= i < |m|
      ensures exists x :: x in s && p(x) && m[i] == f(x)
    {
      FilterMapSource(s, p, f, i);
    }
  }

  lemma MapConcat<T, U>(a: seq<T>, b: seq<T>, f: T -> U)
    ensures Map(a + b, f) == Map(a, f) + Map(b, f)
  {
  }

  /** The position of the first element of `s` satisfying `p`, as `find`
      returns the first match in document order. */
  function FindFirst<T>(s: seq<T>, p: T -> bool): (r: Option<nat>)
    ensures r.Some? ==> r.value < |s| && p(s[r.value]) && forall k :: 0 <= k < r.value ==> !p(s[k])
    ensures r.None? ==> forall k :: 0 <= k < |s| ==> !p(s[k])
  {
    if s == [] then None
    else if p(s[0]) then Some(0)
    else match FindFirst(s[1..], p)
      case None => None
      case Some(k) => Some(k + 1)
  }

  /** The stripped, non-empty texts of the text nodes among `nodes`, in
      order: what `_all_strings(strip=True)` yields over a descendant walk. */
  function StrippedStrings(nodes: seq<Node>): seq<string>
  {
    FlatMap(nodes, Piece)
  }

  /** What one node of the walk contributes: the stripped content of a text
      node when that is not empty, nothing otherwise. */
  function Piece(n: Node): seq<string>
  {
    if n.TextNode? && Strip(n.content) != [] then [Strip(n.content)] else []
  }

  /** Each piece is non-empty and stripped. */
  lemma {:induction false} StrippedStringsPieces(nodes: seq<Node>)
    ensures forall k :: 0 <= k < |StrippedStrings(nodes)| ==>
      StrippedStrings(nodes)[k] != [] && IsStripped(StrippedStrings(nodes)[k])
  {
    if nodes != [] {
      StrippedStringsPieces(nodes[1..]);
      assert StrippedStrings(nodes) == Piece(nodes[0]) + StrippedStrings(nodes[1..]);
    }
  }

  function Concat(ss: seq<string>): string
  {
    if ss == [] then [] else ss[0] + Concat(ss[1..])
  }

  /** Joining non-empty stripped pieces with no separator yields a stripped
      string: its first character opens the first piece, its last character
      closes the last one. */
  lemma {:induction false} ConcatStripped(ss: seq<string>)
    requires forall k :: 0 <= k < |ss| ==> ss[k] != [] && IsStripped(ss[k])
    ensures IsStripped(Concat(ss))
    ensures Concat(ss) == [] <==> ss == []
  {
    if ss != [] {
      ConcatStripped(ss[1..]);
      var rest := Concat(ss[1..]);
      assert Concat(ss) == ss[0] + rest;
      assert Concat(ss)[0] == ss[0][0];
      if rest == [] {
        assert Concat(ss)[|Concat(ss)| - 1] == ss[0][|ss[0]| - 1];
      } else {
        assert Concat(ss)[|Concat(ss)| - 1] == rest[|rest| - 1];
      }
    }
  }

  /** `get_text(strip=True)`: the stripped text nodes below `n`, joined
      with no separator. */
  function GetText(n: Node): (r: string)
    ensures IsStripped(r)
    ensures r == [] <==> !HasVisibleText(Descendants(ChildrenOf(n)))
  {
    var pieces := StrippedStrings(Descendants(ChildrenOf(n)));
    StrippedStringsPieces(Descendants(ChildrenOf(n)));
    ConcatStripped(pieces);
    StrippedStringsEmpty(Descendants(ChildrenOf(n)));
    Concat(pieces)
  }

  /** A text node holding a non-whitespace character. */
  predicate IsVisible(n: Node)
  {
    n.TextNode? && !AllSpace(n.content)
  }

  /** Some text node among `nodes` holds a non-whitespace character. */
  predicate HasVisibleText(nodes: seq<Node>)
  {
    exists k :: 0 <= k < |nodes| && IsVisible(nodes[k])
  }

  lemma VisibleTextCons(nodes: seq<Node>)
    requires nodes != []
    ensures HasVisibleText(nodes) <==> IsVisible(nodes[0]) || HasVisibleText(nodes[1..])
  {
    if HasVisibleText(nodes) && !IsVisible(nodes[0]) {
      var k :| 0 <= k < |nodes| && IsVisible(nodes[k]);
      assert nodes[1..][k - 1] == nodes[k];
    }
    if HasVisibleText(nodes[1..]) {
      var k :| 0 <= k < |nodes[1..]| && IsVisible(nodes[1..][k]);
      assert nodes[k + 1] == nodes[1..][k];
    }
  }

  lemma {:induction false} StrippedStringsEmpty(nodes: seq<Node>)
    ensures StrippedStrings(nodes) == [] <==> !HasVisibleText(nodes)
  {
    if nodes != [] {
      StrippedStringsEmpty(nodes[1..]);
      VisibleTextCons(nodes);
      if nodes[0].TextNode? {
        StripEmptyIffAllSpace(nodes[0].content);
      }
    }
  }

  /** `.string`: the text of the only text node reached by descending
      through only children, or nothing when some level has zero or several
      children. */
  function StringOf(n: Node): Option<string>
  {
    match n
    case TextNode(c) => Some(c)
    case Element(_, _, _, children) => if |children| == 1 then StringOf(children[0]) else None
  }

  /** When an element has a `.string`, its `get_text(strip=True)` is that
      string stripped. */
  lemma {:induction false} GetTextOfString(n: Node, s: string)
    requires n.Element? && StringOf(n) == Some(s)
    ensures GetText(n) == Strip(s)
    decreases n
  {
    var c := n.children[0];
    assert n.children == [c];
    assert Descendants(n.children) == [c] + Descendants(ChildrenOf(c)) by {
      assert n.children[1..] == [];
    }
    match c
    case TextNode(t) =>
      assert Descendants(ChildrenOf(c)) == [];
      assert StrippedStrings([c]) == (if Strip(t) != [] then [Strip(t)] else []) + StrippedStrings([]);
      assert Concat([Strip(t)]) == Strip(t) + Concat([]);
    case Element(_, _, _, _) =>
      GetTextOfString(c, s);
      assert StrippedStrings([c] + Descendants(ChildrenOf(c))) == StrippedStrings(Descendants(ChildrenOf(c))) by {
        assert ([c] + Descendants(ChildrenOf(c)))[1..] == Descendants(ChildrenOf(c));
      }
  }

  // ---------------------------------------------------------------------
  // The value of get_text, piece by piece

  lemma StrippedStringsConcat(a: seq<Node>, b: seq<Node>)
    ensures StrippedStrings(a + b) == StrippedStrings(a) + StrippedStrings(b)
  {
    FlatMapConcat(a, b, Piece);
  }

  lemma {:induction false} ConcatConcat(a: seq<string>, b: seq<string>)
    ensures Concat(a + b) == Concat(a) + Concat(b)
    decreases |a|
  {
    if a == [] {
      assert a + b == b;
    } else {
      assert (a + b)[0] == a[0];
      assert (a + b)[1..] == a[1..] + b;
      ConcatConcat(a[1..], b);
    }
  }

  /** The text of an element whose children are `xs` followed by `ys` is
      the text `xs` contributes followed by the text `ys` contributes: the
      strings below are joined in document order, none dropped. */
  lemma GetTextSplit(tag: string, classes: seq<string>, href: Option<string>, xs: seq<Node>, ys: seq<Node>)
    ensures GetText(Element(tag, classes, href, xs + ys))
         == GetText(Element(tag, classes, href, xs)) + GetText(Element(tag, classes, href, ys))
  {
    DescendantsConcat(xs, ys);
    StrippedStringsConcat(Descendants(xs), Descendants(ys));
    ConcatConcat(StrippedStrings(Descendants(xs)), StrippedStrings(Descendants(ys)));
  }

  /** A lone text child contributes its content stripped. */
  lemma GetTextOfTextChild(tag: string, classes: seq<string>, href: Option<string>, t: string)
    ensures GetText(Element(tag, classes, href, [TextNode(t)])) == Strip(t)
  {
    var c := TextNode(t);
    assert Descendants([c]) == [c] + Descendants([c][1..]);
    assert Descendants([c]) == [c];
    assert StrippedStrings([c]) == (if Strip(t) != [] then [Strip(t)] else []) + StrippedStrings([]);
    assert Concat([Strip(t)]) == Strip(t) + Concat([]);
  }

  /** A lone element child contributes its own text: markup such as `<b>`
      adds no separator. */
  lemma GetTextOfElementChild(tag: string, classes: seq<string>, href: Option<string>, e: Node)
    requires e.Element?
    ensures GetText(Element(tag, classes, href, [e])) == GetText(e)
  {
    assert Descendants([e]) == [e] + Descendants(e.children) + Descendants([e][1..]);
    assert Descendants([e]) == [e] + Descendants(e.children);
    assert StrippedStrings([e] + Descendants(e.children)) == StrippedStrings(Descendants(e.children)) by {
      assert ([e] + Descendants(e.children))[1..] == Descendants(e.children);
    }
  }

  /** The shape of `<p>Hello <b>world</b></p>`: a text child followed by
      an element holding a text gives the two strings stripped and joined
      with no separator ("Helloworld"). */
  lemma GetTextJoinsPieces(u: string, w: string, outer: string, inner: string)
    ensures GetText(Element(outer, [], None, [TextNode(u), Element(inner, [], None, [TextNode(w)])]))
         == Strip(u) + Strip(w)
  {
    var b := Element(inner, [], None, [TextNode(w)]);
    assert [TextNode(u), b] == [TextNode(u)] + [b];
    GetTextSplit(outer, [], None, [TextNode(u)], [b]);
    GetTextOfTextChild(outer, [], None, u);
    GetTextOfElementChild(outer, [], None, b);
    GetTextOfTextChild(inner, [], None, w);
  }
}

=== FILE: links.dfy ===
/** Link classification (app/scraping.py): whether a resolved link stays on
    the crawled site, and whether it is a contact link the crawl must skip. */
module Links {
  import opened Options
  import opened Text

  predicate IsAsciiLetter(c: char)
  {
    ('a' <= c <= 'z') || ('A' <= c <= 'Z')
  }

  predicate IsAsciiDigit(c: char)
  {
    '0' <= c <= '9'
  }

  /** The characters urllib accepts in a scheme name. */
  predicate IsSchemeChar(c: char)
  {
    IsAsciiLetter(c) || IsAsciiDigit(c) || c == '+' || c == '-' || c == '.'
  }

  /** Ends the network location: the first '/', '?' or '#' after "//". */
  predicate IsNetlocDelimiter(c: char)
  {
    c == '/' || c == '?' || c == '#'
  }

  function IndexOf(s: string, c: char): (r: Option<nat>)
    ensures r.Some? ==> r.value < |s| && s[r.value] == c && c !in s[..r.value]
    ensures r.None? ==> c !in s
  {
    if s == [] then None
    else if s[0] == c then Some(0)
    else match IndexOf(s[1..], c)
      case None => None
      case Some(k) => assert s[..k + 1] == [s[0]] + s[1..][..k]; Some(k + 1)
  }

  /** What urlsplit leaves after removing a scheme: the text after the first
      ':' when everything before it is a non-empty scheme name starting with
      a letter, and the whole string otherwise. */
  function AfterScheme(u: string): (r: string)
    ensures |r| <= |u| && r == u[|u| - |r|..]
  {
    match IndexOf(u, ':')
    case Some(i) =>
      if i > 0 && IsAsciiLetter(u[0]) && forall k :: 0 <= k < i ==> IsSchemeChar(u[k]) then u[i + 1..] else u
    case None => u
  }

  /** Position of the first delimiter at or after `from`, or the end. */
  function DelimiterFrom(s: string, from: nat): (r: nat)
    requires from <= |s|
    ensures from <= r <= |s|
    ensures forall k :: from <= k < r ==> !IsNetlocDelimiter(s[k])
    ensures r < |s| ==> IsNetlocDelimiter(s[r])
    decreases |s| - from
  {
    if from == |s| || IsNetlocDelimiter(s[from]) then from else DelimiterFrom(s, from + 1)
  }

  /** urlparse(u).netloc: after the scheme, the text between a leading "//"
      and the next '/', '?' or '#'; empty when there is no "//". */
  function Netloc(u: string): (r: string)
    ensures forall k :: 0 <= k < |r| ==> !IsNetlocDelimiter(r[k])
  {
    var rest := AfterScheme(u);
    if StartsWith(rest, "//") then rest[2..DelimiterFrom(rest, 2)] else []
  }

  /** is_internal_link: the link has no host (it is relative) or exactly the
      host of the page it was found on. */
  predicate IsInternalLink(base: string, link: string)
  {
    Netloc(link) == [] || Netloc(link) == Netloc(base)
  }

  /** An absolute URL `scheme://host rest` is well formed for urlsplit. */
  predicate IsAbsoluteForm(scheme: string, host: string, rest: string)
  {
    && IsSchemeName(scheme)
    && (forall k :: 0 <= k < |host| ==> !IsNetlocDelimiter(host[k]))
    && (rest == [] || IsNetlocDelimiter(rest[0]))
  }

  predicate IsSchemeName(scheme: string)
  {
    |scheme| > 0 && IsAsciiLetter(scheme[0]) && forall k :: 0 <= k < |scheme| ==> IsSchemeChar(scheme[k])
  }

  /** A character absent from `prefix` is first found right after it. */
  lemma {:induction false} IndexOfAfter(prefix: string, c: char, tail: string)
    requires c !in prefix
    ensures IndexOf(prefix + [c] + tail, c) == Some(|prefix|)
    decreases |prefix|
  {
    var u := prefix + [c] + tail;
    if prefix == [] {
      assert u[0] == c;
    } else {
      assert u[0] == prefix[0];
      assert u[1..] == prefix[1..] + [c] + tail;
      IndexOfAfter(prefix[1..], c, tail);
    }
  }

  lemma SchemeHasNoColon(scheme: string)
    requires IsSchemeName(scheme)
    ensures ':' !in scheme
  {
    forall k | 0 <= k < |scheme| ensures scheme[k] != ':' {
      assert IsSchemeChar(scheme[k]);
    }
  }

  /** urlsplit removes a valid scheme name and its ':' and keeps the rest. */
  lemma SchemeRemoved(scheme: string, tail: string)
    requires IsSchemeName(scheme)
    ensures AfterScheme(scheme + [':'] + tail) == tail
  {
    var u := scheme + [':'] + tail;
    SchemeHasNoColon(scheme);
    IndexOfAfter(scheme, ':', tail);
    forall k | 0 <= k < |scheme| ensures IsSchemeChar(u[k]) {
      assert u[k] == scheme[k];
    }
    assert u[|scheme| + 1..] == tail;
  }

  /** The network location after "//" runs exactly to the end of `host`. */
  lemma NetlocRunsToHostEnd(host: string, rest: string)
    requires forall k :: 0 <= k < |host| ==> !IsNetlocDelimiter(host[k])
    requires rest == [] || IsNetlocDelimiter(rest[0])
    ensures DelimiterFrom("//" + host + rest, 2) == 2 + |host|
  {
    var tail := "//" + host + rest;
    assert forall k :: 2 <= k < 2 + |host| ==> tail[k] == host[k - 2];
    assert rest != [] ==> tail[2 + |host|] == rest[0];
  }

  /** The host urlparse reports for `scheme://host rest` is exactly `host`,
      including any user information and port, with case preserved. */
  lemma NetlocOfAbsolute(scheme: string, host: string, rest: string)
    requires IsAbsoluteForm(scheme, host, rest)
    ensures Netloc(scheme + "://" + host + rest) == host
  {
    var tail := "//" + host + rest;
    SplitAtColon(scheme, host, rest);
    SchemeRemoved(scheme, tail);
    NetlocRunsToHostEnd(host, rest);
    assert StartsWith(tail, "//");
    assert tail[2..2 + |host|] == host;
  }

  lemma SplitAtColon(scheme: string, host: string, rest: string)
    ensures scheme + "://" + host + rest == scheme + [':'] + ("//" + host + rest)
  {
  }

  /** For two absolute URLs, the link is internal exactly when its host is
      empty or byte-for-byte the page's host: "A.example" and "a.example"
      differ, and a subdomain is another site. */
  lemma InternalIffSameHost(s1: string, h1: string, r1: string, s2: string, h2: string, r2: string)
    requires IsAbsoluteForm(s1, h1, r1) && IsAbsoluteForm(s2, h2, r2)
    ensures IsInternalLink(s1 + "://" + h1 + r1, s2 + "://" + h2 + r2) <==> h2 == [] || h2 == h1
  {
    NetlocOfAbsolute(s1, h1, r1);
    NetlocOfAbsolute(s2, h2, r2);
  }

  /** A link with no ':' and no leading "//" (a relative path) has no host
      and is always internal. */
  lemma RelativeLinkIsInternal(base: string, link: string)
    requires ':' !in link && !StartsWith(link, "//")
    ensures Netloc(link) == []
    ensures IsInternalLink(base, link)
  {
    assert IndexOf(link, ':').None?;
  }

  // ---------------------------------------------------------------------
  // The contact pattern
  //   ^(tel:|mailto:|\+?\d{1,3}[-.\s]?\(?\d{1,4}\)?[-.\s]?\d{1,4}[-.\s]?\d{1,9})|@
  // applied with re.match, which anchors every alternative at position 0.

  datatype CharClass = Digit | Separator | OpenParen | CloseParen | Plus

  predicate InClass(c: char, cls: CharClass)
  {
    match cls
    case Digit => IsAsciiDigit(c)
    case Separator => c == '-' || c == '.' || IsSpace(c)
    case OpenParen => c == '('
    case CloseParen => c == ')'
    case Plus => c == '+'
  }

  /** One repeated character class `cls{min,max}` of the pattern. */
  datatype Repeat = Repeat(cls: CharClass, min: nat, max: nat)

  /** The phone alternative of the contact pattern, piece by piece. */
  const PhonePattern: seq<Repeat> := [
    Repeat(Plus, 0, 1), Repeat(Digit, 1, 3), Repeat(Separator, 0, 1), Repeat(OpenParen, 0, 1),
    Repeat(Digit, 1, 4), Repeat(CloseParen, 0, 1), Repeat(Separator, 0, 1),
    Repeat(Digit, 1, 4), Repeat(Separator, 0, 1), Repeat(Digit, 1, 9)
  ]

  /** `s[i..i+k]` exists and every character of it is in `cls`. */
  predicate Run(s: string, i: nat, k: nat, cls: CharClass)
  {
    i + k <= |s| && forall j :: i <= j < i + k ==> InClass(s[j], cls)
  }

  /** The pieces of `pattern` can consume consecutive runs of `s` starting
      at position `i` (what follows the last run is not looked at, as with
      re.match). */
  predicate MatchesAt(pattern: seq<Repeat>, s: string, i: nat)
    decreases |pattern|
  {
    pattern == [] ||
    exists k :: pattern[0].min <= k <= pattern[0].max && Run(s, i, k, pattern[0].cls) && MatchesAt(pattern[1..], s, i + k)
  }

  /** PHONE_EMAIL_PATTERN.match(u): a "tel:" or "mailto:" scheme, a
      phone-shaped prefix, or a leading '@'. */
  predicate IsContactLink(u: string)
  {
    StartsWith(u, "tel:") || StartsWith(u, "mailto:") || MatchesAt(PhonePattern, u, 0) || StartsWith(u, "@")
  }

  /** One piece consumes a run of `k` characters and the remaining pieces
      match after it. */
  lemma MatchStep(pattern: seq<Repeat>, s: string, i: nat, k: nat)
    requires pattern != [] && pattern[0].min <= k <= pattern[0].max
    requires Run(s, i, k, pattern[0].cls) && MatchesAt(pattern[1..], s, i + k)
    ensures MatchesAt(pattern, s, i)
  {
  }

  /** Four ASCII digits at the start already match the phone alternative:
      one digit for each of the four mandatory digit groups. */
  lemma FourDigitsIsContact(u: string)
    requires |u| >= 4 && forall k :: 0 <= k < 4 ==> IsAsciiDigit(u[k])
    ensures IsContactLink(u)
  {
    var p := PhonePattern;
    assert MatchesAt(p[10..], u, 4);
    MatchStep(p[9..], u, 3, 1);
    MatchStep(p[8..], u, 3, 0);
    MatchStep(p[7..], u, 2, 1);
    MatchStep(p[6..], u, 2, 0);
    MatchStep(p[5..], u, 2, 0);
    MatchStep(p[4..], u, 1, 1);
    MatchStep(p[3..], u, 1, 0);
    MatchStep(p[2..], u, 1, 0);
    MatchStep(p[1..], u, 0, 1);
    MatchStep(p, u, 0, 0);
  }

  /** A string that starts with a letter is a contact link only through the
      "tel:" or "mailto:" schemes: neither the phone shape nor '@' can match
      at its first character. */
  lemma LetterStartNotPhone(u: string)
    requires |u| > 0 && IsAsciiLetter(u[0])
    ensures !MatchesAt(PhonePattern, u, 0)
  {
  }

  /** Ordinary page URLs ("http://…", "https://…") are never contact
      links, even when '@' occurs later in them. */
  lemma HttpLinkNotContact(u: string)
    requires StartsWith(u, "http")
    ensures !IsContactLink(u)
  {
    LetterStartNotPhone(u);
  }

  /** A "mailto:" link has no host, so the host test alone would follow it:
      it is the contact test that keeps it out of the crawl. */
  lemma MailtoIsHostlessContact(base: string, address: string)
    requires !StartsWith(address, "//")
    ensures Netloc("mailto:" + address) == []
    ensures IsInternalLink(base, "mailto:" + address)
    ensures IsContactLink("mailto:" + address)
  {
    assert "mailto:" + address == "mailto" + [':'] + address;
    SchemeRemoved("mailto", address);
  }
}

=== FILE: options.dfy ===
/** The optional value used wherever the program reads `None` or a missing
    key. */
module Options {

  datatype Option<+T> = None | Some(value: T)
}

=== FILE: sections.dfy ===
/** scrape_sections_content (app/scraping.py): the content regions of a page
    and the headings, text and links collected from each. */
module Sections {
  import opened Options
  import opened Text
  import opened Dom

  datatype LinkRef = LinkRef(text: string, url: string)

  datatype Section = Section(headings: seq<string>, content: seq<string>, links: seq<LinkRef>)

  /** `any(section_data.values())` is false: all three lists are empty. */
  predicate IsEmptySection(s: Section)
  {
    s.headings == [] && s.content == [] && s.links == []
  }

  /** A `section` or `div` with a class token beginning "ct-". */
  predicate IsContainer(n: Node)
  {
    && n.Element? && (n.tag == "section" || n.tag == "div")
    && exists k :: 0 <= k < |n.classes| && StartsWith(n.classes[k], "ct-")
  }

  predicate IsHeadingTag(tag: string)
  {
    tag == "h1" || tag == "h2" || tag == "h3" || tag == "h4" || tag == "h5" || tag == "h6"
  }

  /** An h1-h6 with a class token in which "ct-headline" occurs (the class
      test is a substring test on each token). */
  predicate IsHeadline(n: Node)
  {
    n.Element? && IsHeadingTag(n.tag) && exists k :: 0 <= k < |n.classes| && Contains(n.classes[k], "ct-headline")
  }

  /** A `div` with a class token in which "ct-text-block" occurs. */
  predicate IsTextBlock(n: Node)
  {
    n.Element? && n.tag == "div" && exists k :: 0 <= k < |n.classes| && Contains(n.classes[k], "ct-text-block")
  }

  predicate IsParagraph(n: Node)
  {
    n.Element? && n.tag == "p"
  }

  /** An `a` element carrying an href, whatever its value (`href=True`). */
  predicate IsAnchor(n: Node)
  {
    n.Element? && n.tag == "a" && n.href.Some?
  }

  /** A node one of the four collections takes something from. */
  predicate IsCollected(n: Node)
  {
    IsHeadline(n) || IsTextBlock(n) || IsParagraph(n) || IsAnchor(n)
  }

  /** The link record of an anchor: its stripped text and its href. The
      href is recorded as written, because the base the code joins it with
      (`section.base_url`) is a descendant lookup for a `<base_url>` element,
      which finds nothing when the container holds none, and joining with
      no base returns the href unchanged. */
  function LinkOf(n: Node): LinkRef
  {
    LinkRef(GetText(n), if n.Element? && n.href.Some? then n.href.value else [])
  }

  function TextBlocks(desc: seq<Node>): seq<string>
  {
    Map(Filter(desc, IsTextBlock), GetText)
  }

  function Paragraphs(desc: seq<Node>): seq<string>
  {
    Map(Filter(desc, IsParagraph), GetText)
  }

  /** Something below container `c` is collected. */
  predicate HasCollectable(c: Node)
  {
    exists n :: n in Descendants(ChildrenOf(c)) && IsCollected(n)
  }

  /** The section gathered from everything below container `c`. */
  function SectionOf(c: Node): Section
  {
    SectionData(Descendants(ChildrenOf(c)))
  }

  /** The section data of one container, kept only when not empty. */
  function ExtractSection(container: Node): (r: Option<Section>)
    ensures r.Some? <==> exists n :: n in Descendants(ChildrenOf(container)) && IsCollected(n)
    ensures r.Some? ==> !IsEmptySection(r.value) && r.value == SectionData(Descendants(ChildrenOf(container)))
  {
    var desc := Descendants(ChildrenOf(container));
    var s := SectionData(desc);
    SectionDataEmpty(desc);
    if IsEmptySection(s) then None else Some(s)
  }

  /** The three lists gathered from a container's descendants. */
  function SectionData(desc: seq<Node>): Section
  {
    Section(Map(Filter(desc, IsHeadline), GetText), TextBlocks(desc) + Paragraphs(desc), Map(Filter(desc, IsAnchor), LinkOf))
  }

  lemma SectionDataEmpty(desc: seq<Node>)
    ensures IsEmptySection(SectionData(desc)) <==> forall n :: n in desc ==> !IsCollected(n)
  {
    var h, t, p, a := Filter(desc, IsHeadline), Filter(desc, IsTextBlock), Filter(desc, IsParagraph), Filter(desc, IsAnchor);
    if !IsEmptySection(SectionData(desc)) {
      if h != [] { assert h[0] in h; }
      else if t != [] { assert t[0] in t; }
      else if p != [] { assert p[0] in p; }
      else { assert a[0] in a; }
    }
  }

  /** The headings of a section are the texts of the headlines below the
      container, one per headline and in walk order. */
  lemma HeadingProvenance(desc: seq<Node>)
    ensures |SectionData(desc).headings| == |Filter(desc, IsHeadline)|
    ensures forall i :: 0 <= i < |Filter(desc, IsHeadline)| ==>
      SectionData(desc).headings[i] == GetText(Filter(desc, IsHeadline)[i])
    ensures forall n :: n in desc && IsHeadline(n) <==> n in Filter(desc, IsHeadline)
    ensures forall i :: 0 <= i < |SectionData(desc).headings| ==>
      exists n :: n in desc && IsHeadline(n) && SectionData(desc).headings[i] == GetText(n)
  {
    assert SectionData(desc).headings == Map(Filter(desc, IsHeadline), GetText);
    FilterMapProvenance(desc, IsHeadline, GetText);
  }

  /** The first content entries, one per text block below the container,
      are text-block texts. */
  lemma TextBlocksLeadContent(desc: seq<Node>)
    ensures |Filter(desc, IsTextBlock)| <= |SectionData(desc).content|
    ensures forall i :: 0 <= i < |Filter(desc, IsTextBlock)| ==>
      exists n :: n in desc && IsTextBlock(n) && SectionData(desc).content[i] == GetText(n)
  {
    var mt := TextBlocks(desc);
    var content := SectionData(desc).content;
    assert content == mt + Paragraphs(desc);
    FilterMapProvenance(desc, IsTextBlock, GetText);
    forall i | 0 <= i < |mt| ensures content[i] == mt[i] {
    }
  }

  /** The content entries after the text-block texts are paragraph texts. */
  lemma ParagraphsTrailContent(desc: seq<Node>)
    ensures forall i :: |Filter(desc, IsTextBlock)| <= i < |SectionData(desc).content| ==>
      exists n :: n in desc && IsParagraph(n) && SectionData(desc).content[i] == GetText(n)
  {
    var mt, mp := TextBlocks(desc), Paragraphs(desc);
    var content := SectionData(desc).content;
    assert content == mt + mp;
    assert |mt| == |Filter(desc, IsTextBlock)|;
    FilterMapProvenance(desc, IsParagraph, GetText);
    forall i | |mt| <= i < |content| ensures content[i] == mp[i - |mt|] {
    }
  }

  /** The links of a section are, one per anchor below the container and
      in walk order, the anchor's stripped text and its unresolved href. */
  lemma LinkProvenance(desc: seq<Node>)
    ensures |SectionData(desc).links| == |Filter(desc, IsAnchor)|
    ensures forall i :: 0 <= i < |Filter(desc, IsAnchor)| ==>
      && IsAnchor(Filter(desc, IsAnchor)[i])
      && SectionData(desc).links[i]
         == LinkRef(GetText(Filter(desc, IsAnchor)[i]), Filter(desc, IsAnchor)[i].href.value)
    ensures forall n :: n in desc && IsAnchor(n) <==> n in Filter(desc, IsAnchor)
    ensures forall i :: 0 <= i < |SectionData(desc).links| ==>
      exists n :: n in desc && IsAnchor(n) && SectionData(desc).links[i] == LinkRef(GetText(n), n.href.value)
  {
    var anchors := Filter(desc, IsAnchor);
    var links := SectionData(desc).links;
    LinksOfAnchors(desc);
    forall i | 0 <= i < |links|
      ensures exists n :: n in desc && IsAnchor(n) && links[i] == LinkRef(GetText(n), n.href.value)
    {
      assert anchors[i] in anchors;
    }
  }

  lemma LinksOfAnchors(desc: seq<Node>)
    ensures |SectionData(desc).links| == |Filter(desc, IsAnchor)|
    ensures forall i :: 0 <= i < |Filter(desc, IsAnchor)| ==>
      && IsAnchor(Filter(desc, IsAnchor)[i])
      && SectionData(desc).links[i]
         == LinkRef(GetText(Filter(desc, IsAnchor)[i]), Filter(desc, IsAnchor)[i].href.value)
  {
    var anchors := Filter(desc, IsAnchor);
    var links := SectionData(desc).links;
    assert links == Map(anchors, LinkOf);
    forall i | 0 <= i < |anchors|
      ensures IsAnchor(anchors[i]) && links[i] == LinkRef(GetText(anchors[i]), anchors[i].href.value)
    {
      assert anchors[i] in anchors;
      AnchorLink(anchors[i]);
    }
  }

  lemma AnchorLink(n: Node)
    requires IsAnchor(n)
    ensures LinkOf(n) == LinkRef(GetText(n), n.href.value)
  {
  }

  /** Within a section's content every text block comes before every
      paragraph, and each group keeps document order: for any split of the
      container's walk into a front part and a back part, the content is
      the front's text blocks, the back's text blocks, the front's
      paragraphs, then the back's paragraphs. */
  lemma ContentOrder(front: seq<Node>, back: seq<Node>)
    ensures SectionData(front + back).content
         == TextBlocks(front) + TextBlocks(back) + Paragraphs(front) + Paragraphs(back)
  {
    TextBlocksConcat(front, back);
    ParagraphsConcat(front, back);
    var tf, tb, pf, pb := TextBlocks(front), TextBlocks(back), Paragraphs(front), Paragraphs(back);
    assert SectionData(front + back).content == (tf + tb) + (pf + pb);
    assert (tf + tb) + (pf + pb) == tf + tb + pf + pb;
  }

  lemma TextBlocksConcat(front: seq<Node>, back: seq<Node>)
    ensures TextBlocks(front + back) == TextBlocks(front) + TextBlocks(back)
  {
    FilterConcat(front, back, IsTextBlock);
    MapConcat(Filter(front, IsTextBlock), Filter(back, IsTextBlock), GetText);
  }

  lemma ParagraphsConcat(front: seq<Node>, back: seq<Node>)
    ensures Paragraphs(front + back) == Paragraphs(front) + Paragraphs(back)
  {
    FilterConcat(front, back, IsParagraph);
    MapConcat(Filter(front, IsParagraph), Filter(back, IsParagraph), GetText);
  }

  /** The kept sections of the containers `cs`, in order. */
  function Collect(cs: seq<Node>): (r: seq<Section>)
    ensures |r| <= |cs|
    ensures forall i :: 0 <= i < |r| ==> !IsEmptySection(r[i])
  {
    if cs == [] then []
    else
      var rest := Collect(cs[1..]);
      match ExtractSection(cs[0])
      case Some(s) => [s] + rest
      case None => rest
  }

  /** Collecting keeps, in order, exactly the containers with something
      collectable below them, each giving the section gathered from
      everything below it. */
  lemma {:induction false} CollectKeepsContent(cs: seq<Node>)
    ensures Collect(cs) == Map(Filter(cs, HasCollectable), SectionOf)
    decreases |cs|
  {
    if cs != [] {
      CollectKeepsContent(cs[1..]);
      var c := cs[0];
      assert Filter(cs, HasCollectable) == (if HasCollectable(c) then [c] else []) + Filter(cs[1..], HasCollectable);
      if HasCollectable(c) {
        assert ExtractSection(c) == Some(SectionOf(c));
        assert Map([c] + Filter(cs[1..], HasCollectable), SectionOf)
            == [SectionOf(c)] + Map(Filter(cs[1..], HasCollectable), SectionOf);
      } else {
        assert ExtractSection(c).None?;
        assert [] + Filter(cs[1..], HasCollectable) == Filter(cs[1..], HasCollectable);
      }
    }
  }

  lemma {:induction false} CollectConcat(a: seq<Node>, b: seq<Node>)
    ensures Collect(a + b) == Collect(a) + Collect(b)
    decreases |a|
  {
    if a == [] {
      assert a + b == b;
    } else {
      assert (a + b)[0] == a[0];
      assert (a + b)[1..] == a[1..] + b;
      CollectConcat(a[1..], b);
    }
  }

  /** scrape_sections_content: every selected container of the document,
      in document order, that yields a non-empty section. */
  function ExtractSections(doc: seq<Node>): (r: seq<Section>)
    ensures forall i :: 0 <= i < |r| ==> !IsEmptySection(r[i])
    ensures |r| <= |Filter(Descendants(doc), IsContainer)|
    ensures r == Map(Filter(Filter(Descendants(doc), IsContainer), HasCollectable), SectionOf)
  {
    CollectKeepsContent(Filter(Descendants(doc), IsContainer));
    Collect(Filter(Descendants(doc), IsContainer))
  }

  /** Every marked container anywhere in the tree, at any nesting depth and
      nested containers included, with something collectable below it
      contributes its section. */
  lemma EveryContainerContributes(doc: seq<Node>, c: Node)
    requires c in Descendants(doc) && IsContainer(c) && HasCollectable(c)
    ensures SectionOf(c) in ExtractSections(doc)
  {
    var containers := Filter(Descendants(doc), IsContainer);
    InFilter(Descendants(doc), IsContainer, c);
    InFilter(containers, HasCollectable, c);
    InMap(Filter(containers, HasCollectable), SectionOf, c);
  }

  /** Sections come out in document order: the sections of two consecutive
      parts of a document are those of the first part followed by those of
      the second. */
  lemma SectionsInDocumentOrder(front: seq<Node>, back: seq<Node>)
    ensures ExtractSections(front + back) == ExtractSections(front) + ExtractSections(back)
  {
    DescendantsConcat(front, back);
    FilterConcat(Descendants(front), Descendants(back), IsContainer);
    CollectConcat(Filter(Descendants(front), IsContainer), Filter(Descendants(back), IsContainer));
  }

  /** A document in which no element is a marked container yields no
      sections, whatever else it holds. */
  lemma NoContainerNoSections(doc: seq<Node>)
    requires forall n :: n in Descendants(doc) ==> !IsContainer(n)
    ensures ExtractSections(doc) == []
  {
    assert Filter(Descendants(doc), IsContainer) == [] by {
      if Filter(Descendants(doc), IsContainer) != [] {
        var c := Filter(Descendants(doc), IsContainer)[0];
        assert c in Filter(Descendants(doc), IsContainer);
      }
    }
  }

  /** A single marked container with nothing collectable below it (for
      instance only bare text) is dropped. */
  lemma ContainerWithoutContentDropped(c: Node)
    requires IsContainer(c)
    requires forall n :: n in Descendants(c.children) ==> !IsCollected(n) && !IsContainer(n)
    ensures ExtractSections([c]) == []
  {
    assert Descendants([c]) == [c] + Descendants(c.children) + Descendants([]);
    assert Descendants([c]) == [c] + Descendants(c.children);
    FilterConcat([c], Descendants(c.children), IsContainer);
    assert Filter([c], IsContainer) == [c] + Filter([], IsContainer);
    NoContainerFilterEmpty(Descendants(c.children));
    assert Filter(Descendants([c]), IsContainer) == [c];
    assert Collect([c]) == Collect([]) by { assert ExtractSection(c).None?; }
  }

  lemma NoContainerFilterEmpty(s: seq<Node>)
    requires forall n :: n in s ==> !IsContainer(n)
    ensures Filter(s, IsContainer) == []
  {
    if Filter(s, IsContainer) != [] {
      assert Filter(s, IsContainer)[0] in Filter(s, IsContainer);
    }
  }

  /** A single marked container with something collectable below it and no
      marked container nested inside yields exactly its own section, built
      from the walk below it. */
  lemma ContainerKept(c: Node)
    requires IsContainer(c)
    requires forall n :: n in Descendants(c.children) ==> !IsContainer(n)
    requires exists n :: n in Descendants(c.children) && IsCollected(n)
    ensures ExtractSections([c]) == [SectionData(Descendants(c.children))]
  {
    assert Descendants([c]) == [c] + Descendants(c.children) + Descendants([]);
    assert Descendants([c]) == [c] + Descendants(c.children);
    FilterConcat([c], Descendants(c.children), IsContainer);
    assert Filter([c], IsContainer) == [c] + Filter([], IsContainer);
    NoContainerFilterEmpty(Descendants(c.children));
    assert Filter(Descendants([c]), IsContainer) == [c];
    assert ExtractSection(c) == Some(SectionData(Descendants(c.children)));
    assert Collect([c]) == [SectionData(Descendants(c.children))] + Collect([]);
  }
}

=== FILE: text.dfy ===
/** Character and string helpers shared by the document model, the link
    classifier and the output filename: Python's notion of whitespace,
    prefix and substring tests, str.strip() and str.replace(). */
module Text {

  /** Python's str.isspace(): the characters str.strip() removes and the
      regular-expression class \s matches in a str pattern. */
  predicate IsSpace(c: char)
  {
    || ('\U{9}' <= c <= '\U{D}')
    || ('\U{1C}' <= c <= ' ')
    || c == '\U{85}' || c == '\U{A0}' || c == '\U{1680}'
    || ('\U{2000}' <= c <= '\U{200A}')
    || c == '\U{2028}' || c == '\U{2029}' || c == '\U{202F}' || c == '\U{205F}' || c == '\U{3000}'
  }

  predicate AllSpace(s: string)
  {
    forall k :: 0 <= k < |s| ==> IsSpace(s[k])
  }

  /** A string with no whitespace at either end, as str.strip() leaves it. */
  predicate IsStripped(s: string)
  {
    s == [] || (!IsSpace(s[0]) && !IsSpace(s[|s| - 1]))
  }

  predicate StartsWith(s: string, prefix: string)
  {
    |prefix| <= |s| && s[..|prefix|] == prefix
  }

  predicate EndsWith(s: string, suffix: string)
  {
    |suffix| <= |s| && s[|s| - |suffix|..] == suffix
  }

  /** Python's `needle in s` for two strings. */
  predicate Contains(s: string, needle: string)
  {
    exists i :: 0 <= i <= |s| - |needle| && OccursAt(s, needle, i)
  }

  predicate OccursAt(s: string, needle: string, i: nat)
  {
    i + |needle| <= |s| && s[i..i + |needle|] == needle
  }

  /** Every character of `s` outside the slice [i, j) is whitespace. */
  predicate SpaceOutside(s: string, i: nat, j: nat)
  {
    forall k :: 0 <= k < |s| && !(i <= k < j) ==> IsSpace(s[k])
  }

  /** The first position at or after `from` that is not whitespace, or the
      end of `s`. */
  function SkipSpace(s: string, from: nat): (i: nat)
    requires from <= |s|
    ensures from <= i <= |s|
    ensures forall k :: from <= k < i ==> IsSpace(s[k])
    ensures i < |s| ==> !IsSpace(s[i])
    decreases |s| - from
  {
    if from < |s| && IsSpace(s[from]) then SkipSpace(s, from + 1) else from
  }

  /** Walking back from `hi`, no further than `lo`: the end of the last
      non-whitespace character, or `lo`. */
  function SkipSpaceBack(s: string, lo: nat, hi: nat): (j: nat)
    requires lo <= hi <= |s|
    ensures lo <= j <= hi
    ensures forall k :: j <= k < hi ==> IsSpace(s[k])
    ensures lo < j ==> !IsSpace(s[j - 1])
    decreases hi
  {
    if lo < hi && IsSpace(s[hi - 1]) then SkipSpaceBack(s, lo, hi - 1) else hi
  }

  /** The slice str.strip() keeps: everything outside it is whitespace and,
      when it is not empty, it starts and ends with non-whitespace. */
  function StripBounds(s: string): (b: (nat, nat))
    ensures b.0 <= b.1 <= |s|
    ensures SpaceOutside(s, b.0, b.1)
    ensures b.0 < b.1 ==> !IsSpace(s[b.0]) && !IsSpace(s[b.1 - 1])
  {
    var i := SkipSpace(s, 0);
    (i, SkipSpaceBack(s, i, |s|))
  }

  /** str.strip(): the slice of `s` without its leading and trailing
      whitespace. */
  function Strip(s: string): (r: string)
    ensures IsStripped(r)
    ensures |r| <= |s|
  {
    var b := StripBounds(s);
    s[b.0..b.1]
  }

  /** str.strip() leaves a string that is already stripped unchanged. */
  lemma StripFixesStripped(s: string)
    requires IsStripped(s)
    ensures Strip(s) == s
  {
    assert SkipSpace(s, 0) == 0;
    assert SkipSpaceBack(s, 0, |s|) == |s|;
    assert s[0..|s|] == s;
  }

  /** A string made only of whitespace strips to the empty string, and
      only such strings do. */
  lemma StripEmptyIffAllSpace(s: string)
    ensures Strip(s) == [] <==> AllSpace(s)
  {
    var b := StripBounds(s);
    if b.0 < b.1 {
      assert Strip(s)[0] == s[b.0];
    } else {
      forall k | 0 <= k < |s| ensures IsSpace(s[k]) {
        assert !(b.0 <= k < b.1);
      }
    }
  }

  /** str.replace(pattern, replacement): every non-overlapping occurrence
      of `pattern`, found scanning left to right, is replaced. */
  function ReplaceAll(s: string, pattern: string, replacement: string): string
    requires |pattern| > 0
    decreases |s|
  {
    if |s| < |pattern| then s
    else if s[..|pattern|] == pattern then replacement + ReplaceAll(s[|pattern|..], pattern, replacement)
    else [s[0]] + ReplaceAll(s[1..], pattern, replacement)
  }

  /** Replacing one character by another maps the string character by
      character, so the replaced character no longer occurs. */
  lemma {:induction false} ReplaceCharPointwise(s: string, c: char, d: char)
    ensures |ReplaceAll(s, [c], [d])| == |s|
    ensures forall k :: 0 <= k < |s| ==> ReplaceAll(s, [c], [d])[k] == (if s[k] == c then d else s[k])
    decreases |s|
  {
    if |s| > 0 {
      ReplaceCharPointwise(s[1..], c, d);
      var tail := ReplaceAll(s[1..], [c], [d]);
      assert s[..1] == [c] <==> s[0] == c;
      assert ReplaceAll(s, [c], [d]) == [if s[0] == c then d else s[0]] + tail;
    }
  }

  lemma ReplaceCharRemoves(s: string, c: char, d: char)
    requires c != d
    ensures c !in ReplaceAll(s, [c], [d])
  {
    ReplaceCharPointwise(s, c, d);
  }

  /** A string in which the pattern does not occur is left as it is. */
  lemma {:induction false} ReplaceAbsent(s: string, pattern: string, replacement: string)
    requires |pattern| > 0 && !Contains(s, pattern)
    ensures ReplaceAll(s, pattern, replacement) == s
    decreases |s|
  {
    if |s| >= |pattern| {
      assert !OccursAt(s, pattern, 0);
      if Contains(s[1..], pattern) {
        var i :| 0 <= i <= |s[1..]| - |pattern| && OccursAt(s[1..], pattern, i);
        assert s[i + 1..i + 1 + |pattern|] == s[1..][i..i + |pattern|];
        assert OccursAt(s, pattern, i + 1);
      }
      ReplaceAbsent(s[1..], pattern, replacement);
      assert [s[0]] + s[1..] == s;
    }
  }

  /** A leading occurrence of the pattern is the first one replaced. */
  lemma ReplaceLeading(pattern: string, s: string, replacement: string)
    requires |pattern| > 0
    ensures ReplaceAll(pattern + s, pattern, replacement) == replacement + ReplaceAll(s, pattern, replacement)
  {
    assert (pattern + s)[..|pattern|] == pattern;
    assert (pattern + s)[|pattern|..] == s;
  }
}

=== FILE: website.dfy ===
/** scrape_website and the file name save_to_json writes to
    (app/scraping.py). Writing the file itself is left out. */
module Website {
  import opened Options
  import opened Text
  import opened Crawler
  import opened CrawlProperties

  // ---------------------------------------------------------------------
  // The output file name

  /** `url.replace("https://", "").replace("http://", "").replace("/", "_")
      + ".json"`: the name of the file under output/ that receives the
      record. */
  function OutputFilename(url: string): (r: string)
    ensures EndsWith(r, ".json")
    ensures '/' !in r
  {
    var bare := ReplaceAll(ReplaceAll(url, "https://", ""), "http://", "");
    var name := ReplaceAll(bare, "/", "_");
    ReplaceCharRemoves(bare, '/', '_');
    var r := name + ".json";
    assert r[|r| - 5..] == ".json";
    assert forall k :: 0 <= k < |r| ==> r[k] == (if k < |name| then name[k] else ".json"[k - |name|]);
    r
  }

  lemma HttpPrefixHasNoHttps(rest: string)
    requires !Contains(rest, "https://")
    ensures !Contains("http://" + rest, "https://")
  {
    var s := "http://" + rest;
    forall i | 0 <= i <= |s| - 8 ensures !OccursAt(s, "https://", i) {
      if i >= 7 {
        assert s[i..i + 8] == rest[i - 7..i - 7 + 8];
        assert !OccursAt(rest, "https://", i - 7);
      } else if i == 0 {
        assert s[i..i + 8][4] == ':';
      } else {
        assert s[i..i + 8][0] != 'h';
      }
    }
  }

  /** For a URL whose remainder names no other scheme, the file name is the
      remainder with every '/' turned into '_', whichever of the two schemes
      it starts with: the http and https forms of a page share one file. */
  lemma FilenameDropsScheme(rest: string)
    requires !Contains(rest, "https://") && !Contains(rest, "http://")
    ensures OutputFilename("https://" + rest) == ReplaceAll(rest, "/", "_") + ".json"
    ensures OutputFilename("http://" + rest) == ReplaceAll(rest, "/", "_") + ".json"
  {
    ReplaceLeading("https://", rest, "");
    ReplaceAbsent(rest, "https://", "");
    assert "" + rest == rest;
    ReplaceAbsent(rest, "http://", "");
    assert ReplaceAll(ReplaceAll("https://" + rest, "https://", ""), "http://", "") == rest;
    HttpPrefixHasNoHttps(rest);
    ReplaceAbsent("http://" + rest, "https://", "");
    ReplaceLeading("http://", rest, "");
    assert ReplaceAll(ReplaceAll("http://" + rest, "https://", ""), "http://", "") == rest;
  }

  // ---------------------------------------------------------------------
  // The entry point

  /** scrape_website(url, depth) as written: scrape_page is called without a
      `visited` argument, so it uses the one set created with the function
      (`visited=set()`), which every call of the process shares. The shared
      state goes in and comes out. */
  function ScrapeWebsiteShared(web: Web, url: string, depth: int, shared: State): (r: Crawled)
    ensures Extends(shared, r.state)
    ensures url in r.state.visited || depth < 0
  {
    CrawlExtends(web, url, depth, None, shared);
    CrawlLogGrows(web, url, depth, None, shared);
    var r := Crawl(web, url, depth, None, shared);
    assert url in shared.visited || depth < 0 || r.state.log[|shared.log|].url == url;
    r
  }

  /** With the shared set, asking for the same page a second time in the
      same process (a second form submission, say) fetches nothing and
      returns `{}`, which save_to_json then writes over the first result. */
  lemma RepeatedRequestReturnsNothing(web: Web, url: string, depth: int, shared: State)
    requires depth >= 0 && url !in shared.visited
    ensures var first := ScrapeWebsiteShared(web, url, depth, shared);
      var second := ScrapeWebsiteShared(web, url, depth, first.state);
      && first.data.url.Some?
      && second.data == Empty
      && second.state == first.state
  {
    LastFetchWins(web, url, depth, None, shared);
  }

  /** scrape_website(url, depth) with the evidently intended fresh visited
      set: every call crawls from scratch, so for a non-negative depth the
      record always holds a URL and a sections_content, however many times
      the page was asked for before. */
  function ScrapeWebsite(web: Web, url: string, depth: int): (r: Record)
    ensures depth < 0 ==> r == Empty
    ensures depth >= 0 ==> r.url.Some? && r.sectionsContent.Some?
  {
    var c := Crawl(web, url, depth, None, State({}, []));
    if depth >= 0 then LastFetchWins(web, url, depth, None, State({}, [])); c.data else c.data
  }
}
